=== FILE: README.md ===
# Plugin manifest validation rules, in Dafny

This project models the rule engine of the plugin-manifest validation step
in `index.js`. The step reads a plugin's JSON manifest. It reports problems
as build annotations, each an Error or a Warning. It also prints a plain
console line for an `author` or `permissions` value of a shape it does not
support, modelled here as a `Notice`. Finally it publishes the `codename`
and `version` values as step outputs. The model's verdict is whether an
Error annotation is reported. index.js reports Errors with `core.error`,
which does not change the step's exit status (see "Left out").

The model has these modules:

- `JsonValue` (Json.dfy) is the parsed document. Numbers are integers.
- `Text` (Text.dfy) holds the string operations the rules use.
  - `startsWith`, `endsWith`, and `includes` (which also stands for the rules' `indexOf("  ") !== -1`).
  - Splitting on a separator, with the one-character `indexOf` it uses.
  - Decimal rendering of a character code.
  - The first character below code 32.
- `Diagnostics` (Diagnostics.dfy) has one `Message` constructor per call
  site that reports something. `Render` gives each message's exact text.
  It also defines the three severities and the count of Errors.
- `Grammar` (Grammar.dfy) writes each regular expression twice, and proves
  that the two versions accept the same strings:
  - as a recursive predicate with the shape of the expression (`...Match`);
  - as a flat description of what it accepts (`...Shape`).
- `Validators` (Validators.dfy) has one function per check:
  - `checkApiVersion`, `checkCodename`, `checkName`, `checkVersion`,
    `checkDescription`, `checkWebsite`, `checkAuthor` and `checkPermission`;
  - `validateNonPrintCharacter`, both as a function and as the
    left-to-right scanning loop of index.js.

  Each function returns the diagnostics in the order they are reported. A
  type or length check that does not hold gives one Error and ends that
  check.
  Warnings never end it.
- `Manifest` (Manifest.dfy) is the orchestrator of the `readFile` callback.
  - It looks at the eight keys in a fixed order.
  - It applies the policy for absent keys.
  - It dispatches the string-or-array shapes of `author` and
    `permissions`.
  - It computes the outputs.
  - It models the exception thrown for a `null` document, or for a document
    with its own `hasOwnProperty` key, as the `Thrown` outcome.
- `OfficialMode` (Official.dfy) proves what the `official` input changes:
  exactly three Warnings, and nothing else.
- `Scenarios` (Scenarios.dfy) holds properties over families of inputs and
  the concrete cases the rules are usually explained with.

## Model

| member | source | states |
|---|---|---|
| Text.FirstControl | index.js:76-80 | the position of the first character whose code is below 32 (or the length): everything before it is printable and the character there is not |
| Text.NatToString | index.js:93 | the decimal text of a character code is a non-empty digit string with no leading zero (unless it is the single digit `0`) whose value is the code |
| Diagnostics.WarningsThen | index.js:117-125 | Warnings reported before the rest of a check change neither whether it reports an Error nor that an Error comes last |
| Diagnostics.Render | index.js:7-366 | definition: the exact text of every message index.js reports, one constructor per call site, with the field label and the character code filled in |
| Grammar.GroupStarShape | index.js:57-58 | the tail `([_A]?[A])*` accepts exactly the strings of word characters with no `__` and no trailing `_` |
| Grammar.IdentEquiv | index.js:57-58 | `regex_req` and `regex_min` accept exactly the strings that start with a letter, use only letters, digits and `_`, have no `__` and do not end in `_` (lowercase letters only for `regex_min`) |
| Grammar.LowerWithinAny | index.js:57-65 | every string `regex_min` accepts, `regex_req` accepts too, so the expected-format Warning can only follow a passed required check |
| Grammar.IdentMatch | index.js:57-58 | definition: `regex_req` and `regex_min` written with the structure of the expressions, a letter then the starred group; its meaning is stated by Grammar.IdentEquiv |
| Grammar.PermMatch | index.js:283 | definition: the permission expression written with its structure, an identifier then an optional `.` and a further permission; its meaning is stated by Grammar.PermEquiv |
| Grammar.PermMatchShape | index.js:283 | a string the permission expression accepts is a `.`-separated list of `regex_min` identifiers |
| Grammar.PermShapeMatch | index.js:283 | a `.`-separated list of `regex_min` identifiers is accepted by the permission expression |
| Grammar.PermEquiv | index.js:283 | the permission expression accepts exactly the `.`-separated lists of non-empty lowercase identifiers |
| Grammar.MinorPatchEquiv | index.js:137 | the part after the first dot matches exactly when it splits into one or two digit runs |
| Grammar.VersionMatch | index.js:137 | definition: the version expression written with its structure, digits, a dot, then the minor-and-patch part; its meaning is stated by Grammar.VersionEquiv |
| Grammar.VersionEquiv | index.js:137 | the version expression accepts exactly the strings that split on `.` into two or three non-empty digit runs |
| Validators.ControlMessage | index.js:81-95 | the new-line message exactly for codes 13 and 10, the tab message exactly for code 9, and otherwise the generic message carrying the character's code |
| Validators.CheckControl | index.js:74-98 | at most one Error. There is none exactly when every character code is at least 32. Otherwise the Error is for the first such character: new line for codes 10 and 13, tab for 9, the generic message with the code for the rest |
| Validators.ScanControl | index.js:76-97 | the left-to-right loop that stops at the first control character reports exactly what `CheckControl` states |
| Validators.SpaceWarnings | index.js:120-123 | only Warnings. The edge-space Warning is there exactly when the text starts or ends with a space, the double-space Warning exactly when it contains two adjacent spaces, and nothing else is reported. Each is reported at most once, the edge-space Warning before the double-space one |
| Validators.CheckApiVersion | index.js:7-30 | nothing exactly for the number 1. An Error exactly when the value is neither 1 nor "1". A string always gives the "should be a number" Warning first. The length is one per string plus one for a value other than 1 and "1", so "1" gives one Warning, another string a Warning then an Error, and any other value one Error |
| Validators.CheckCodename | index.js:31-73 | reports an Error exactly when the value is not a string of at least two characters in the required grammar. A non-string or a string shorter than 2 gives exactly one diagnostic. The Error, if any, comes last |
| Validators.CodenameFails | index.js:49-63 | a codename of at least two characters outside the required grammar gets exactly the short Warning below 8 characters, then the required-format Error, and nothing after it |
| Validators.CodenameParts | index.js:49-72 | a codename that passes the required grammar gets exactly these Warnings, in order: short below 8 characters, expected format when not in the lowercase grammar, reserved prefix unless official |
| Validators.CodenameWarnings | index.js:49-72 | each codename Warning is reported exactly when its condition holds of a codename that reaches it |
| Validators.CheckName | index.js:99-126 | reports an Error exactly when the value is not a string of at least two characters without control characters. A non-string or a string shorter than 2 gives one diagnostic. The Error comes last |
| Validators.NameParts | index.js:117-125 | a name of at least two characters gets exactly, in this order: the short-name Warning below 8 characters, the whitespace Warnings (edge before double, each at most once), then what the control-character scan reports |
| Validators.NameWarnings | index.js:117-123 | the short-name and both whitespace Warnings are reported exactly when they apply to a name of at least two characters |
| Validators.CheckVersion | index.js:127-152 | nothing exactly for a string with two or three dot-separated digit runs. Otherwise exactly one Error |
| Validators.CheckDescription | index.js:153-178 | reports an Error exactly when the value is not a string of at least 16 characters without control characters. A shorter one gives one diagnostic. The Error comes last |
| Validators.DescriptionParts | index.js:172-177 | a description of at least 16 characters gets exactly, in this order: the whitespace Warnings (edge before double, each at most once), then what the control-character scan reports |
| Validators.DescriptionWarnings | index.js:172-175 | the only Warnings are the two whitespace ones, each reported exactly when it applies to a description of at least 16 characters |
| Validators.CheckWebsite | index.js:179-218 | reports an Error exactly when the value is not a string of at least 10 characters with an `http://` or `https://` scheme and no control characters. A non-string or a shorter one gives one diagnostic |
| Validators.WebsiteParts | index.js:198-217 | a website of at least 10 characters gets exactly, in this order: the whitespace Warnings, then the scheme Error and nothing more when the scheme is neither `http://` nor `https://`; otherwise the `http://` Warning, the control-character scan and the official-domain Warning |
| Validators.WebsiteWarnings | index.js:203-217 | the `http://` Warning and the official-domain Warning are each reported exactly when their conditions hold |
| Validators.WebsiteSpaceWarnings | index.js:198-201 | both whitespace Warnings are reported exactly when they apply to a website of at least 10 characters |
| Validators.WebsiteOneError | index.js:179-218 | a website gets at most one Error |
| Validators.CheckAuthor | index.js:219-253 | reports an Error exactly when the value is not a string of at least two characters without control characters. A non-string or a shorter one gives one diagnostic. The Error comes last |
| Validators.AuthorParts | index.js:237-252 | an author of at least two characters gets exactly, in this order: the short Warning below 8 characters, the whitespace Warnings, the control-character scan, then the reserved-author Warning unless official |
| Validators.AuthorWarnings | index.js:237-252 | the short Warning and the reserved-author Warning are each reported exactly when their conditions hold |
| Validators.AuthorSpaceWarnings | index.js:241-244 | both whitespace Warnings are reported exactly when they apply to an author of at least two characters |
| Validators.ReservedAuthorPrintable | index.js:246-252 | the reserved names `vl` and `voxelite` hold no control character |
| Validators.CheckPermission | index.js:254-290 | reports an Error exactly when the item is not a string of at least two characters, without control characters, in the permission grammar. A non-string or a shorter one gives one diagnostic |
| Validators.PermissionParts | index.js:273-289 | a permission of at least two characters gets the whitespace Warnings, the control-character scan, then the format Error when it is not in the permission grammar |
| Validators.PermissionFormatChecked | index.js:280-288 | the format Error is reported exactly when the item is long enough and not in the grammar, even after a control-character Error |
| Validators.PermissionSpaceWarnings | index.js:273-276 | both whitespace Warnings are reported exactly when they apply to a permission of at least two characters |
| Validators.PermissionErrors | index.js:254-290 | a permission gets at most two Errors |
| Manifest.Rank | index.js:312-367 | every key stands somewhere in the inspection order |
| Manifest.KeyInjective | index.js:312-358 | different fields are looked up under different keys |
| Manifest.MissingDiags | index.js:313-335 | definition: the diagnostics for an absent key, the missing-key Error for a required key, the `name` Warning, nothing otherwise; its meaning is stated by Manifest.MissingVerdict and Manifest.MissingPolicy |
| Manifest.MissingVerdict | index.js:313-335 | an absent key is reported with an Error exactly when it is `api_version`, `codename` or `version` |
| Manifest.CheckEachConcat | index.js:352 | items checked one after the other: the diagnostics of a concatenation are those of its parts in order |
| Manifest.CheckEachSingle | index.js:352 | a one-item array reports what its item reports |
| Manifest.CheckEach | index.js:352-363 | definition: `forEach` over the items, each item's diagnostics in item order; its meaning is stated by Manifest.CheckEachMembers, Manifest.CheckEachConcat and Manifest.CheckEachVerdict |
| Manifest.CheckEachMembers | index.js:350-353 | a diagnostic is reported for an array exactly when it is reported for one of its items |
| Manifest.CheckEachVerdict | index.js:350-353 | an array reports an Error exactly when one of its items does |
| Manifest.CheckField | index.js:313-366 | definition: the dispatch of a present key to its check, including the string-or-array shapes of `author` and `permissions` and the Notice for other shapes; its meaning is stated by Manifest.FieldVerdict and Manifest.FieldDiags |
| Manifest.FieldVerdict | index.js:312-367 | a present key's rule reports an Error exactly when its value breaks that key's rule. A value of unsupported shape never does |
| Manifest.FieldDiags | index.js:345-366 | a present key never reports a missing key. It prints a Notice exactly when its value is of unsupported shape |
| Manifest.Present | index.js:313-358 | definition: the own keys `hasOwnProperty` finds, those of an object and none for an array, string, number or boolean document, which therefore gets the absent-key diagnostics of all eight keys; its meaning is stated by Manifest.ValidateMembers and Manifest.MissingPolicy |
| Manifest.Throws | index.js:313 | definition: the `hasOwnProperty` lookup throws for a `null` document and for an object whose own `hasOwnProperty` key shadows the method |
| Manifest.Section | index.js:313-366 | definition: a key's part of the run, its check when present and its absent-key diagnostics otherwise; its meaning is stated by Manifest.SectionVerdict, Manifest.SectionMissing and Manifest.SectionNotice |
| Manifest.SectionVerdict | index.js:312-367 | a key's part of the run reports an Error exactly when the key is not accepted, whether absent and required or present with a bad value |
| Manifest.RunFields | index.js:312-367 | definition: the parts of the given keys, one after the other; its meaning is stated by Manifest.RunFieldsMembers and Manifest.ValidateVerdict |
| Manifest.RunFieldsMembers | index.js:312-367 | a diagnostic of a run belongs to the part of one of its keys |
| Manifest.Outputs | index.js:323-331 | definition: the `codename` and `version` entries that `setOutput` publishes; its meaning is stated by Manifest.OutputsRestrict and Manifest.OutputsPolicy |
| Manifest.Validate | index.js:310-313 | the run throws exactly for `null` and for an object with its own `hasOwnProperty` key |
| Manifest.ValidateVerdict | index.js:312-367 | a completed run reports an Error exactly when some key is not accepted, so later keys are checked whatever earlier ones reported |
| Manifest.ValidateMembers | index.js:312-367 | the diagnostics of a completed run are exactly those of the eight keys |
| Manifest.CommonParts | index.js:120-125 | the whitespace Warnings and the control-character scan report no missing key and nothing the official flag silences |
| Manifest.ApiVersionAnnotates | index.js:7-30 | `checkApiVersion` reports only Errors and Warnings that the official flag does not touch |
| Manifest.CodenameAnnotates | index.js:31-73 | `checkCodename` reports only Errors and Warnings, never a missing key |
| Manifest.VersionAnnotates | index.js:127-152 | `checkVersion` reports only Errors the official flag does not touch |
| Manifest.NameAnnotates | index.js:99-126 | `checkName` reports only Errors and Warnings the official flag does not touch |
| Manifest.DescriptionAnnotates | index.js:153-178 | `checkDescription` reports only Errors and Warnings the official flag does not touch |
| Manifest.WebsiteAnnotates | index.js:179-218 | `checkWebsite` reports only Errors and Warnings, never a missing key |
| Manifest.AuthorAnnotates | index.js:219-253 | `checkAuthor` reports only Errors and Warnings, never a missing key |
| Manifest.PermissionAnnotates | index.js:254-290 | `checkPermission` reports only Errors and Warnings the official flag does not touch |
| Manifest.SectionMissing | index.js:313-332 | the missing-key Error for a key comes only from that key's part, and only when the key is required and absent |
| Manifest.SectionMissingName | index.js:334-335 | the missing-`name` Warning comes only from the `name` part, and only when `name` is absent |
| Manifest.SectionNotice | index.js:345-366 | a key's part prints a Notice exactly when the key holds a value of unsupported shape |
| Manifest.MissingPolicy | index.js:313-332 | the run reports a key as missing exactly when it is required and absent |
| Manifest.MissingNamePolicy | index.js:334-335 | the run warns about `name` exactly when it is absent |
| Manifest.NoticePolicy | index.js:345-366 | the run prints a Notice exactly when `author` or `permissions` holds a value of unsupported shape |
| Manifest.OutputsRestrict | index.js:318-332 | the outputs are the `codename` and `version` entries of the document, unchanged |
| Manifest.OutputsPolicy | index.js:318-332 | a completed run outputs exactly the present `codename` and `version` values, as they are, whatever their checks reported |
| Manifest.OtherKeysIgnored | index.js:312-367 | two objects that agree on the eight keys, neither with its own `hasOwnProperty` key, give the same outcome |
| Manifest.OutputsAgree | index.js:323-331 | documents that agree on the eight keys have the same outputs |
| Manifest.SectionsAgree | index.js:312-367 | documents that agree on the eight keys report the same diagnostics |
| Manifest.RunFieldsAbsent | index.js:312-343 | with no key present, each key reports only its absent-key diagnostics |
| Manifest.AbsentFieldOrder | index.js:312-343 | the absent-key diagnostics, in order, are three missing-key Errors then the `name` Warning |
| Manifest.EmptyManifest | index.js:312-367 | an empty object gives the three missing-key Errors in key order, then the `name` Warning, and no outputs |
| Manifest.NonObjectDocument | index.js:313-358 | a document that parses to an array, a string, a number or a boolean completes like the empty object: the three missing-key Errors, the `name` Warning and no outputs |
| OfficialMode.DropWaived | index.js:5 | removing the three silenced Warnings keeps everything else, in order |
| OfficialMode.DropWaivedErrors | index.js:312-367 | removing the silenced Warnings keeps every Error, in order |
| OfficialMode.DropTrailing | index.js:68-72 | kept diagnostics followed by silenced Warnings lose exactly the Warnings |
| OfficialMode.CodenameWaiver | index.js:68-72 | `checkCodename` in official mode is the ordinary result without the reserved-prefix Warning |
| OfficialMode.CodenameUnwaived | index.js:59-63 | a codename outside the required grammar never reaches the prefix check, so both modes agree |
| OfficialMode.WebsiteWaiver | index.js:213-217 | `checkWebsite` in official mode is the ordinary result without the official-domain Warning |
| OfficialMode.AuthorWaiver | index.js:248-252 | `checkAuthor` in official mode is the ordinary result without the reserved-author Warning |
| OfficialMode.AuthorsWaiver | index.js:350-353 | the same holds for an array of authors |
| OfficialMode.FieldWaiver | index.js:312-367 | every key's rule in official mode is its ordinary result without the silenced Warnings |
| OfficialMode.SectionWaiver | index.js:312-367 | every key's part in official mode, absent keys included, is its ordinary part without the silenced Warnings |
| OfficialMode.RunFieldsWaiver | index.js:312-367 | the whole run in official mode is the ordinary run without the silenced Warnings |
| OfficialMode.ValidateOfficial | index.js:5 | the flag changes neither whether the run throws, nor its outputs, nor its Errors. It only removes the three silenced Warnings |
| Scenarios.CodenameTiers | index.js:39-50 | a lowercase codename that raises no prefix Warning gets one Error below 2 characters, exactly one Warning from 2 to 7, and nothing from 8 |
| Scenarios.VersionFromRuns | index.js:137-141 | digit runs joined by dots pass exactly when there are two or three of them |
| Scenarios.VersionAccepted | index.js:137-141 | "1.2" and "1.2.3" give no diagnostics |
| Scenarios.VersionFourRuns | index.js:137-141 | "1.2.3.4" gives exactly the format Error |
| Scenarios.VersionLeadingLetter | index.js:137-141 | "v1.2" gives exactly the format Error |
| Scenarios.VersionNumber | index.js:129-133 | a version that is not a string (a number, `null`, a boolean, an array or an object) gives exactly the type Error |
| Scenarios.ExampleCodename | index.js:31-73 | `example_plugin` gives no diagnostics in either mode |
| Scenarios.ExampleVersion | index.js:137-141 | "1.0.0" gives no diagnostics |
| Scenarios.RunSplit | index.js:312-367 | the run is the required keys, then `name`, then the other optional keys |
| Scenarios.OptionalAbsent | index.js:334-366 | in a document with only the required keys, an optional key reports only its absent-key diagnostics |
| Scenarios.OptionalSilent | index.js:338-366 | in such a document, the keys after `name` report nothing |
| Scenarios.RequiredSilent | index.js:312-332 | helper for Scenarios.RequiredOnlyDiags: required keys whose parts each report nothing add nothing to the run |
| Scenarios.RequiredOnlyDiags | index.js:312-367 | a document with only the three required keys, each of whose parts reports nothing (a valid `api_version` "1" or a short codename still reports a Warning, so it is not covered), reports only the missing-`name` Warning |
| Scenarios.RequiredOnly | index.js:312-367 | such a document completes with that one Warning and outputs its codename and version |
| Scenarios.RequiredDispatch | index.js:313-332 | helper for Scenarios.EndToEnd: a present required key's part is its own rule's result |
| Scenarios.EndToEnd | index.js:312-367 | `{"api_version": 1, "codename": "example_plugin", "version": "1.0.0"}` completes with only the missing-`name` Warning and outputs the codename and version |

## Left out

- Reading the action inputs, checking that the file exists and reading it (index.js:1-5, 292-309) are left out. They are I/O. `official` is a parameter of every member that depends on it.
- `JSON.parse` is left out: the model starts from a parsed `Json` value. Its exception for malformed text, and the outer `try`/`catch` with `setFailed` (index.js:292, 372-375), are also left out. That handler could not catch an exception thrown inside the asynchronous callback anyway.
- The exit status of the step is not modelled. `core.error` only adds an Error annotation. The step fails only through `setFailed` in the outer handler (index.js:372-375) or through an uncaught exception. The `Thrown` outcome stands for the uncaught exception of the `hasOwnProperty` lookup. Every "reports an Error" in this model is about the annotation, not about the exit status, so a run the model reports an Error for still exits successfully in index.js.
- Reporting through the annotation and console calls is left out. The diagnostics are returned as a sequence, in the order the calls happen.
- `setOutput`'s conversion of values to text is left out. The outputs are the raw JSON values.
- The JavaScript regular-expression engine is not modelled. Each expression is a recursive predicate with the expression's structure, proved equal to a flat description.
- UTF-16 code units are not modelled: `length` and `charCodeAt` are taken over Dafny characters, and a character's code is `c as int`.
- Floating-point numbers are not modelled: `JNum` carries an integer. A non-integral number in `api_version` behaves like any integer other than 1.
- The commented-out extraction of the version groups (index.js:143-150) and the TODO about a list of known permissions (index.js:278) are left out: neither does anything.
- Manifest aliases and plugin relations (`depends`, `replaces` and the rest), with their outputs, are left out. index.js handles none of them.
- Manifest.Validate: states only when the run throws. What a completed run reports is stated by ValidateVerdict, ValidateMembers, the policy lemmas and OfficialMode.ValidateOfficial.
- Where one might expect otherwise, the model follows index.js:
  - `permissions` must be an array of strings. A bare string is printed as unsupported.
  - The reserved codename prefixes are the four exact, case-sensitive strings `vl_`, `VL_`, `voxelite_` and `VOXELITE_`. The prefix check is reached only when the required grammar passed.
  - The outputs are set whenever the keys are present, even when their checks reported an Error.
  - An unsupported `author` or `permissions` shape is a console line, not an Error.
  - A document that parses to an array, a string, a number or a boolean is not rejected as such. `hasOwnProperty` finds none of the eight keys on it, so it gets the three missing-key Errors and the `name` Warning, and no outputs (Manifest.NonObjectDocument).
  - The codename length Warning is also given to codenames that then get the expected-format or prefix Warning. The "exactly one Warning" tier of Scenarios.CodenameTiers therefore assumes a lowercase codename with no prefix Warning.
- The control-character Error of `checkWebsite` and `checkPermission` does not end those checks, because it returns only from the helper scan. The domain Warning or the format Error may follow it. The model keeps this behaviour.

=== FILE: Diagnostics.dfy ===
/** Diagnostics produced by the manifest rules.

    `Error` and `Warning` are the two annotation severities of the build
    step; `Notice` is the plain console line the orchestrator prints for an
    `author` or `permissions` value of unsupported shape, which is not an
    annotation at all. Each message is one constructor of `Message`, one per reporting
    call site of index.js; `Render` gives its exact text. */
module Diagnostics {
  import opened Text

  /** `field` and `subject` are the labels index.js writes into the text,
      backticks included (for example "`name`" or "`permissions` item"). */
  datatype Message =
    | ApiType
    | ApiString
    | ApiValue
    | NotString(field: string)
    | Empty(field: string)
    | AtLeastTwo(field: string)
    | AtLeastOrAbsent(field: string, min: nat)
    | ShortText(field: string, value: string)
    | EdgeSpace(subject: string)
    | DoubleSpace(subject: string)
    | NewLine(field: string)
    | Tab(field: string)
    | NonPrintable(field: string, code: nat)
    | CodenameShort
    | CodenameRequired
    | CodenameExpected
    | CodenamePrefix
    | VersionType
    | VersionFormat
    | WebsiteScheme
    | WebsiteHttp
    | WebsiteOfficial
    | AuthorReserved
    | PermissionType
    | PermissionEmpty
    | PermissionMin(permission: string)
    | PermissionFormat(permission: string)
    | Missing(key: string)
    | MissingName
    | UnsupportedAuthor
    | UnsupportedPermissions

  /** The text index.js prints for each message. */
  function Render(m: Message): string {
    match m
    case ApiType => "Invalid type of `api_version`, use number"
    case ApiString => "`api_version` should be a number"
    case ApiValue => "`api_version` only supports value of 1"
    case NotString(f) => f + " must be a string"
    case Empty(f) => f + " cannot be empty"
    case AtLeastTwo(f) => f + " must be at least 2 characters"
    case AtLeastOrAbsent(f, n) => f + " must be at least " + NatToString(n) + " characters (or not present)"
    case ShortText(f, v) => f + " should be at least 8 characters which '" + v + "' is not"
    case EdgeSpace(f) => f + " should not start or end with a space character"
    case DoubleSpace(f) => f + " should not contain multiple consecutive space characters"
    case NewLine(f) => f + " cannot contain a new line"
    case Tab(f) => f + " cannot contain tab character"
    case NonPrintable(f, c) => f + " cannot contain non-printable character (first 32 ASCII characters) - found character " + NatToString(c)
    case CodenameShort => "`codename` should be at least 8 characters"
    case CodenameRequired => "`codename` does not match required format - only alphanumeric characters with optional underscore"
    case CodenameExpected => "`codename` does not match expected format - only lowercase letters, numbers and optional underscores"
    case CodenamePrefix => "It looks like you are using `codename` similar to official Voxelite ones, please choose a different prefix"
    case VersionType => "`version` must be a string in a specific format - see Semantic Versioning ( https://semver.org/ )"
    case VersionFormat => "`version` does not match Semantic Versioning ( https://semver.org/ ) format of `major.minor.patch` or `major.minor`"
    case WebsiteScheme => "`website` must start with `https://`"
    case WebsiteHttp => "Consider using `https://` instead of `http://` for `website`"
    case WebsiteOfficial => "It looks like you are using official Voxelite `website`, please use your own website or don't include any `website` info"
    case AuthorReserved => "Please don't include `voxelite` in the list of authors"
    case PermissionType => "Each item in `permissions` must be a string"
    case PermissionEmpty => "Permission cannot be empty"
    case PermissionMin(p) => "Permission must be at least 2 characters which '" + p + "' is not"
    case PermissionFormat(p) => "Wrong permission format for '" + p + "' - is the permission correct?"
    case Missing(k) => "Missing `" + k + "`"
    case MissingName => "Missing `name`, `codename` will be used instead"
    case UnsupportedAuthor => "Unsupported data type for `author` - use a string or an array of strings"
    case UnsupportedPermissions => "Unsupported data type for `permissions` - use an array of strings"
  }

  datatype Diag = Error(msg: Message) | Warning(msg: Message) | Notice(msg: Message)

  /** The Warnings an official plugin is spared: the reserved codename
      prefixes, the project's own website and the project as an author. */
  predicate Waived(d: Diag) {
    d.Warning? && (d.msg == CodenamePrefix || d.msg == WebsiteOfficial || d.msg == AuthorReserved)
  }

  /** Some diagnostic is an Error annotation. index.js reports Errors with
      `core.error`, which annotates the run but does not set its exit status. */
  predicate HasError(ds: seq<Diag>) {
    exists d :: d in ds && d.Error?
  }

  /** Every diagnostic but the last is a Warning: an Error, if any, is the
      only one and nothing is reported after it. */
  predicate ErrorEndsChain(ds: seq<Diag>) {
    forall i | 0 <= i < |ds| - 1 :: ds[i].Warning?
  }

  predicate AllWarnings(ds: seq<Diag>) {
    forall i | 0 <= i < |ds| :: ds[i].Warning?
  }

  /** Warnings in front of a check's tail change neither whether it reports
      an Error nor that its Error comes last. */
  lemma WarningsThen(w: seq<Diag>, tail: seq<Diag>)
    requires AllWarnings(w)
    ensures HasError(w + tail) <==> HasError(tail)
    ensures ErrorEndsChain(tail) ==> ErrorEndsChain(w + tail)
  {
    if HasError(w + tail) {
      var d :| d in w + tail && d.Error?;
    }
    if HasError(tail) {
      var d :| d in tail && d.Error?;
      assert d in w + tail;
    }
    if ErrorEndsChain(tail) {
      forall i | 0 <= i < |w + tail| - 1
        ensures (w + tail)[i].Warning?
      {
        if i >= |w| {
          assert (w + tail)[i] == tail[i - |w|];
        }
      }
    }
  }

  lemma WarningsHaveNoErrors(w: seq<Diag>)
    requires AllWarnings(w)
    ensures Errors(w) == []
  {
    if w != [] {
      assert w[0].Warning?;
      WarningsHaveNoErrors(w[1..]);
    }
  }

  /** Warnings around a piece add no Errors to it. */
  lemma ErrorsBetweenWarnings(a: seq<Diag>, e: seq<Diag>, b: seq<Diag>)
    requires AllWarnings(a) && AllWarnings(b)
    ensures Errors(a + e + b) == Errors(e)
  {
    WarningsHaveNoErrors(a);
    WarningsHaveNoErrors(b);
    ErrorsConcat(a, e);
    ErrorsConcat(a + e, b);
  }

  lemma HasErrorConcat(a: seq<Diag>, b: seq<Diag>)
    ensures HasError(a + b) <==> HasError(a) || HasError(b)
  {
    if HasError(a) {
      var d :| d in a && d.Error?;
      assert d in a + b;
    }
    if HasError(b) {
      var d :| d in b && d.Error?;
      assert d in a + b;
    }
  }

  /** The outcome of a check that reports one Error and returns at once. */
  function Stop(msg: Message): (r: seq<Diag>)
    ensures HasError(r) && ErrorEndsChain(r)
  {
    var r := [Error(msg)];
    assert r[0] in r;
    r
  }

  /** The Errors of `ds`, in order. */
  function Errors(ds: seq<Diag>): (es: seq<Diag>)
    ensures forall d :: d in es <==> d in ds && d.Error?
    ensures |es| <= |ds|
  {
    if ds == [] then []
    else (if ds[0].Error? then [ds[0]] else []) + Errors(ds[1..])
  }

  function ErrorCount(ds: seq<Diag>): nat {
    |Errors(ds)|
  }

  lemma {:induction false} ErrorsConcat(a: seq<Diag>, b: seq<Diag>)
    ensures Errors(a + b) == Errors(a) + Errors(b)
    decreases |a|
  {
    if a == [] {
      assert a + b == b;
    } else {
      assert (a + b)[1..] == a[1..] + b;
      ErrorsConcat(a[1..], b);
    }
  }

  /** True iff there is a Notice in `ds`. */
  predicate HasNotice(ds: seq<Diag>) {
    exists d :: d in ds && d.Notice?
  }
}

=== FILE: Grammar.dfy ===
/** The format grammars of the manifest rules.

    Each regular expression of index.js is written twice: once as a
    recursive predicate that follows the shape of the expression (`...Match`,
    the one the validators use) and once as a flat description of the
    strings it accepts (`...Shape`, the one contracts are stated with). The
    lemmas of this module prove the two agree. */
module Grammar {
  import opened Text

  /** `AnyCase` is the required grammar `[a-zA-Z]`, `LowerOnly` the expected one `[a-z]`. */
  datatype LetterCase = AnyCase | LowerOnly

  predicate IsLetter(c: char, k: LetterCase) {
    ('a' <= c <= 'z') || (k == AnyCase && 'A' <= c <= 'Z')
  }

  predicate IsDigit(c: char) {
    '0' <= c <= '9'
  }

  predicate IsAlnum(c: char, k: LetterCase) {
    IsLetter(c, k) || IsDigit(c)
  }

  predicate IsWord(c: char, k: LetterCase) {
    IsAlnum(c, k) || c == '_'
  }

  // ---------------------------------------------------------------------
  // Identifiers: ^[a-zA-Z]([_a-zA-Z0-9]?[a-zA-Z0-9])*$ and its lowercase twin
  // ---------------------------------------------------------------------

  /** `([_A]?[A])*` where `A` is an alphanumeric of case `k`: every way of
      consuming one group, either a single alphanumeric or a word character
      followed by an alphanumeric. */
  predicate GroupStar(t: string, k: LetterCase)
    decreases |t|
  {
    || |t| == 0
    || (IsAlnum(t[0], k) && GroupStar(t[1..], k))
    || (|t| >= 2 && IsWord(t[0], k) && IsAlnum(t[1], k) && GroupStar(t[2..], k))
  }

  /** The identifier regular expression: a letter, then the group star. */
  predicate IdentMatch(s: string, k: LetterCase) {
    |s| >= 1 && IsLetter(s[0], k) && GroupStar(s[1..], k)
  }

  /** Only word characters, no two adjacent underscores, no trailing underscore. */
  predicate TailShape(t: string, k: LetterCase) {
    && (forall i | 0 <= i < |t| :: IsWord(t[i], k))
    && (forall i | 0 <= i < |t| - 1 :: !(t[i] == '_' && t[i + 1] == '_'))
    && (|t| == 0 || t[|t| - 1] != '_')
  }

  /** An identifier: starts with a letter of case `k`, uses only letters of
      case `k`, digits and `_`, has no `__` and does not end in `_`. */
  predicate IdentShape(s: string, k: LetterCase) {
    && |s| >= 1
    && IsLetter(s[0], k)
    && (forall i | 0 <= i < |s| :: IsWord(s[i], k))
    && (forall i | 0 <= i < |s| - 1 :: !(s[i] == '_' && s[i + 1] == '_'))
    && s[|s| - 1] != '_'
  }

  lemma {:induction false} GroupStarShape(t: string, k: LetterCase)
    ensures GroupStar(t, k) <==> TailShape(t, k)
    decreases |t|
  {
    if |t| == 0 {
      return;
    }
    GroupStarShape(t[1..], k);
    if |t| >= 2 {
      GroupStarShape(t[2..], k);
    }
    if GroupStar(t, k) {
      if IsAlnum(t[0], k) && GroupStar(t[1..], k) {
        assert forall i | 1 <= i < |t| :: t[i] == t[1..][i - 1];
      } else {
        assert forall i | 2 <= i < |t| :: t[i] == t[2..][i - 2];
      }
    }
    if TailShape(t, k) {
      assert forall i | 0 <= i < |t[1..]| :: t[1..][i] == t[i + 1];
      if !IsAlnum(t[0], k) {
        assert t[0] == '_';
        assert |t| >= 2;
        assert forall i | 0 <= i < |t[2..]| :: t[2..][i] == t[i + 2];
      }
    }
  }

  /** The identifier regular expression accepts exactly the identifiers. */
  lemma IdentEquiv(s: string, k: LetterCase)
    ensures IdentMatch(s, k) <==> IdentShape(s, k)
  {
    if |s| >= 1 {
      GroupStarShape(s[1..], k);
      assert forall i | 1 <= i < |s| :: s[i] == s[1..][i - 1];
    }
  }

  /** Every string the expected (lowercase) grammar accepts, the required
      grammar accepts too: the "expected format" Warning can only follow a
      passed required check. */
  lemma LowerWithinAny(s: string)
    ensures IdentMatch(s, LowerOnly) ==> IdentMatch(s, AnyCase)
  {
    IdentEquiv(s, LowerOnly);
    IdentEquiv(s, AnyCase);
  }

  lemma IdentHasNoDot(s: string, k: LetterCase)
    requires IdentShape(s, k)
    ensures '.' !in s
  {
  }

  // ---------------------------------------------------------------------
  // Permissions: ^(I)(\.(I))*$ with I the lowercase identifier expression
  // ---------------------------------------------------------------------

  /** The permission regular expression: one identifier, or an identifier,
      a dot and again a permission. */
  predicate PermMatch(s: string)
    decreases |s|
  {
    || IdentMatch(s, LowerOnly)
    || exists i | 0 < i < |s| :: s[i] == '.' && IdentMatch(s[..i], LowerOnly) && PermMatch(s[i + 1..])
  }

  /** A permission: its `.`-separated segments are all lowercase identifiers
      (so none of them is empty). */
  predicate PermShape(s: string) {
    var segments := Split(s, '.');
    forall j | 0 <= j < |segments| :: IdentShape(segments[j], LowerOnly)
  }

  /** What the permission expression accepts is dot-separated identifiers. */
  lemma {:induction false} PermMatchShape(s: string)
    requires PermMatch(s)
    ensures PermShape(s)
    decreases |s|
  {
    if IdentMatch(s, LowerOnly) {
      IdentEquiv(s, LowerOnly);
      IdentHasNoDot(s, LowerOnly);
      SplitWhole(s, '.');
    } else {
      var i :| 0 < i < |s| && s[i] == '.' && IdentMatch(s[..i], LowerOnly) && PermMatch(s[i + 1..]);
      IdentEquiv(s[..i], LowerOnly);
      IdentHasNoDot(s[..i], LowerOnly);
      SplitAt(s, '.', i);
      PermMatchShape(s[i + 1..]);
    }
  }

  /** Dot-separated identifiers are accepted by the permission expression. */
  lemma {:induction false} PermShapeMatch(s: string)
    requires PermShape(s)
    ensures PermMatch(s)
    decreases |s|
  {
    var i := IndexOf(s, '.');
    var segments := Split(s, '.');
    if i == |s| {
      assert segments == [s];
      assert IdentShape(segments[0], LowerOnly);
      IdentEquiv(s, LowerOnly);
    } else {
      assert segments == [s[..i]] + Split(s[i + 1..], '.');
      assert IdentShape(segments[0], LowerOnly);
      IdentEquiv(s[..i], LowerOnly);
      var rest := Split(s[i + 1..], '.');
      assert forall j | 0 <= j < |rest| :: rest[j] == segments[j + 1];
      PermShapeMatch(s[i + 1..]);
      assert s[i] == '.' && IdentMatch(s[..i], LowerOnly) && PermMatch(s[i + 1..]);
    }
  }

  /** The permission regular expression accepts exactly the permissions. */
  lemma PermEquiv(s: string)
    ensures PermMatch(s) <==> PermShape(s)
  {
    if PermMatch(s) {
      PermMatchShape(s);
    }
    if PermShape(s) {
      PermShapeMatch(s);
    }
  }

  // ---------------------------------------------------------------------
  // Versions: ^[0-9]+\.[0-9]+(?:\.[0-9]+)?$
  // ---------------------------------------------------------------------

  /** `[0-9]+` */
  predicate Digits(s: string) {
    |s| >= 1 && forall i | 0 <= i < |s| :: IsDigit(s[i])
  }

  /** `[0-9]+(?:\.[0-9]+)?` */
  predicate MinorPatchMatch(t: string) {
    || Digits(t)
    || exists j | 0 < j < |t| :: t[j] == '.' && Digits(t[..j]) && Digits(t[j + 1..])
  }

  /** The version regular expression: digits, a dot, then the rest above. */
  predicate VersionMatch(s: string) {
    exists i | 0 < i < |s| :: s[i] == '.' && Digits(s[..i]) && MinorPatchMatch(s[i + 1..])
  }

  /** All pieces between dots are non-empty digit runs. */
  predicate AllDigitRuns(parts: seq<string>) {
    forall j | 0 <= j < |parts| :: Digits(parts[j])
  }

  /** A version: two or three `.`-separated runs of digits. */
  predicate VersionShape(s: string) {
    var parts := Split(s, '.');
    (|parts| == 2 || |parts| == 3) && AllDigitRuns(parts)
  }

  lemma DigitsHaveNoDot(s: string)
    requires Digits(s)
    ensures '.' !in s
  {
  }

  lemma MinorPatchSound(t: string)
    requires MinorPatchMatch(t)
    ensures var parts := Split(t, '.'); (|parts| == 1 || |parts| == 2) && AllDigitRuns(parts)
  {
    if Digits(t) {
      DigitsHaveNoDot(t);
      SplitWhole(t, '.');
    } else {
      var j :| 0 < j < |t| && t[j] == '.' && Digits(t[..j]) && Digits(t[j + 1..]);
      DigitsHaveNoDot(t[..j]);
      DigitsHaveNoDot(t[j + 1..]);
      SplitAt(t, '.', j);
      SplitWhole(t[j + 1..], '.');
    }
  }

  lemma MinorPatchComplete(t: string)
    requires var parts := Split(t, '.'); (|parts| == 1 || |parts| == 2) && AllDigitRuns(parts)
    ensures MinorPatchMatch(t)
  {
    var parts := Split(t, '.');
    if |parts| == 1 {
      SplitSingle(t, '.');
      assert Digits(parts[0]);
    } else {
      SplitFirst(t, '.');
      var j := IndexOf(t, '.');
      var rest := Split(t[j + 1..], '.');
      assert rest == parts[1..];
      SplitSingle(t[j + 1..], '.');
      assert Digits(parts[0]) && Digits(parts[1]);
      assert t[j] == '.' && Digits(t[..j]) && Digits(t[j + 1..]);
    }
  }

  lemma MinorPatchEquiv(t: string)
    ensures MinorPatchMatch(t) <==>
      var parts := Split(t, '.');
      (|parts| == 1 || |parts| == 2) && AllDigitRuns(parts)
  {
    if MinorPatchMatch(t) {
      MinorPatchSound(t);
    }
    var parts := Split(t, '.');
    if (|parts| == 1 || |parts| == 2) && AllDigitRuns(parts) {
      MinorPatchComplete(t);
    }
  }

  lemma VersionEquiv(s: string)
    ensures VersionMatch(s) <==> VersionShape(s)
  {
    var parts := Split(s, '.');
    if VersionMatch(s) {
      var i :| 0 < i < |s| && s[i] == '.' && Digits(s[..i]) && MinorPatchMatch(s[i + 1..]);
      DigitsHaveNoDot(s[..i]);
      SplitAt(s, '.', i);
      MinorPatchEquiv(s[i + 1..]);
      assert parts == [s[..i]] + Split(s[i + 1..], '.');
    }
    if VersionShape(s) {
      var i := IndexOf(s, '.');
      assert i < |s|;
      assert parts == [s[..i]] + Split(s[i + 1..], '.');
      var rest := Split(s[i + 1..], '.');
      assert forall j | 0 <= j < |rest| :: rest[j] == parts[j + 1];
      MinorPatchEquiv(s[i + 1..]);
      assert Digits(parts[0]);
      assert s[i] == '.' && Digits(s[..i]) && MinorPatchMatch(s[i + 1..]);
    }
  }
}

=== FILE: Json.dfy ===
/** The already-parsed JSON document the manifest rules inspect.

    Numbers carry an integer payload: every rule that looks at a number only
    asks whether it is exactly 1, so a fractional number behaves like any
    other integer different from 1. */
module JsonValue {

  datatype Json =
    | JNull
    | JBool(b: bool)
    | JNum(n: int)
    | JStr(s: string)
    | JArr(items: seq<Json>)
    | JObj(fields: map<string, Json>)

  /** True iff every element is a JSON string (JavaScript `every(item => typeof item === "string")`). */
  predicate AllStrings(items: seq<Json>) {
    forall i | 0 <= i < |items| :: items[i].JStr?
  }
}

=== FILE: Manifest.dfy ===
/** The orchestrator of index.js: the parsed manifest is inspected key by
    key in a fixed order. A required key that is absent is an Error, an
    absent `name` a Warning, the other absent keys are silent; a present key
    is handed to its rule. `author` and `permissions` accept arrays of
    strings, checked item after item; a value of any other shape is only
    reported on the console (a `Notice`). The values of `codename` and
    `version` become outputs of the step whenever the keys are present,
    whatever their rules said. */
module Manifest {
  import opened JsonValue
  import opened Grammar
  import opened Diagnostics
  import opened Validators

  /** The keys the orchestrator looks up. */
  datatype Field =
    | ApiVersionKey
    | CodenameKey
    | VersionKey
    | NameKey
    | DescriptionKey
    | WebsiteKey
    | AuthorKey
    | PermissionsKey

  function Key(f: Field): string {
    match f
    case ApiVersionKey => "api_version"
    case CodenameKey => "codename"
    case VersionKey => "version"
    case NameKey => "name"
    case DescriptionKey => "description"
    case WebsiteKey => "website"
    case AuthorKey => "author"
    case PermissionsKey => "permissions"
  }

  /** The order in which the keys are inspected, and so the order of the
      diagnostics they produce. */
  const FieldOrder: seq<Field> :=
    [ApiVersionKey, CodenameKey, VersionKey, NameKey, DescriptionKey, WebsiteKey, AuthorKey, PermissionsKey]

  /** Where `f` stands in `FieldOrder`: every key is inspected. */
  function Rank(f: Field): (i: nat)
    ensures i < |FieldOrder| && FieldOrder[i] == f
  {
    match f
    case ApiVersionKey => 0
    case CodenameKey => 1
    case VersionKey => 2
    case NameKey => 3
    case DescriptionKey => 4
    case WebsiteKey => 5
    case AuthorKey => 6
    case PermissionsKey => 7
  }

  /** Different fields are looked up under different keys. */
  lemma KeyInjective(f: Field, g: Field)
    ensures Key(f) == Key(g) <==> f == g
  {
    if f != g {
      assert |Key(f)| != |Key(g)| || Key(f)[0] != Key(g)[0];
    }
  }

  predicate Required(f: Field) {
    f == ApiVersionKey || f == CodenameKey || f == VersionKey
  }

  /** What an absent key produces. */
  function MissingDiags(f: Field): seq<Diag> {
    if Required(f) then [Error(Missing(Key(f)))]
    else if f == NameKey then [Warning(MissingName)]
    else []
  }

  /** An absent key is reported as an Error exactly when it is required. */
  lemma MissingVerdict(f: Field)
    ensures HasError(MissingDiags(f)) <==> Required(f)
  {
    if Required(f) {
      assert MissingDiags(f)[0] in MissingDiags(f);
    }
  }

  // ---------------------------------------------------------------------
  // arrays
  // ---------------------------------------------------------------------

  /** `items.forEach(check)`: the diagnostics of every item, item after item. */
  function CheckEach(items: seq<Json>, check: Json -> seq<Diag>): seq<Diag>
    decreases |items|
  {
    if items == [] then [] else check(items[0]) + CheckEach(items[1..], check)
  }

  /** Checking two runs of items one after the other is checking their
      concatenation. */
  lemma {:induction false} CheckEachConcat(a: seq<Json>, b: seq<Json>, check: Json -> seq<Diag>)
    ensures CheckEach(a + b, check) == CheckEach(a, check) + CheckEach(b, check)
    decreases |a|
  {
    if a == [] {
      assert a + b == b;
    } else {
      assert (a + b)[1..] == a[1..] + b;
      CheckEachConcat(a[1..], b, check);
    }
  }

  lemma CheckEachSingle(x: Json, check: Json -> seq<Diag>)
    ensures CheckEach([x], check) == check(x)
  {
    assert [x][1..] == [];
  }

  function AuthorCheck(official: bool): Json -> seq<Diag> {
    x => CheckAuthor(x, official)
  }

  function PermissionCheck(): Json -> seq<Diag> {
    x => CheckPermission(x)
  }

  // ---------------------------------------------------------------------
  // one key
  // ---------------------------------------------------------------------

  /** The rule the orchestrator applies to a present key. */
  function CheckField(f: Field, v: Json, official: bool): seq<Diag> {
    match f
    case ApiVersionKey => CheckApiVersion(v)
    case CodenameKey => CheckCodename(v, official)
    case VersionKey => CheckVersion(v)
    case NameKey => CheckName(v)
    case DescriptionKey => CheckDescription(v)
    case WebsiteKey => CheckWebsite(v, official)
    case AuthorKey =>
      if v.JStr? then CheckAuthor(v, official)
      else if v.JArr? && AllStrings(v.items) then CheckEach(v.items, AuthorCheck(official))
      else [Notice(UnsupportedAuthor)]
    case PermissionsKey =>
      if v.JArr? && AllStrings(v.items) then CheckEach(v.items, PermissionCheck())
      else [Notice(UnsupportedPermissions)]
  }

  /** A value of a shape the orchestrator does not check. */
  predicate Unsupported(f: Field, v: Json) {
    match f
    case AuthorKey => !v.JStr? && !(v.JArr? && AllStrings(v.items))
    case PermissionsKey => !(v.JArr? && AllStrings(v.items))
    case _ => false
  }

  /** The declarative acceptance rule of a present value: what each rule
      demands for it to report no Error. */
  predicate ValueOk(f: Field, v: Json) {
    match f
    case ApiVersionKey => v == JNum(1) || v == JStr("1")
    case CodenameKey => CodenameOk(v)
    case VersionKey => v.JStr? && VersionShape(v.s)
    case NameKey => NameOk(v)
    case DescriptionKey => DescriptionOk(v)
    case WebsiteKey => WebsiteOk(v)
    case AuthorKey =>
      if v.JStr? then AuthorOk(v)
      else v.JArr? && AllStrings(v.items) ==> forall i | 0 <= i < |v.items| :: AuthorOk(v.items[i])
    case PermissionsKey =>
      v.JArr? && AllStrings(v.items) ==> forall i | 0 <= i < |v.items| :: PermissionOk(v.items[i])
  }

  /** A present key's rule reports an Error exactly when its value breaks
      the declarative rule; a value of unsupported shape never does. */
  lemma FieldVerdict(f: Field, v: Json, official: bool)
    ensures HasError(CheckField(f, v, official)) <==> !ValueOk(f, v)
    ensures Unsupported(f, v) ==> !HasError(CheckField(f, v, official))
  {
    match f
    case AuthorKey =>
      if !v.JStr? && v.JArr? && AllStrings(v.items) {
        CheckEachVerdict(v.items, AuthorCheck(official));
      } else if !v.JStr? {
        assert !HasError([Notice(UnsupportedAuthor)]);
      }
    case PermissionsKey =>
      if v.JArr? && AllStrings(v.items) {
        CheckEachVerdict(v.items, PermissionCheck());
      } else {
        assert !HasError([Notice(UnsupportedPermissions)]);
      }
    case _ =>
  }

  // ---------------------------------------------------------------------
  // the document
  // ---------------------------------------------------------------------

  /** The own keys `hasOwnProperty` finds: those of an object, none for any
      other parsed value. */
  function Present(doc: Json): map<string, Json> {
    if doc.JObj? then doc.fields else map[]
  }

  /** The lookup of `hasOwnProperty` itself fails on `null` and on an
      object that has its own key named "hasOwnProperty", whose value is not
      a function; the callback then throws before reporting anything. */
  predicate Throws(doc: Json) {
    doc.JNull? || (doc.JObj? && "hasOwnProperty" in doc.fields)
  }

  /** The diagnostics of one key. */
  function Section(f: Field, fields: map<string, Json>, official: bool): seq<Diag> {
    if Key(f) in fields then CheckField(f, fields[Key(f)], official) else MissingDiags(f)
  }

  /** A key passes when it is absent and optional, or present with a value
      its rule accepts. */
  predicate FieldAccepted(f: Field, fields: map<string, Json>) {
    if Key(f) in fields then ValueOk(f, fields[Key(f)]) else !Required(f)
  }

  /** The sections of `order`, one after the other. */
  function RunFields(order: seq<Field>, fields: map<string, Json>, official: bool): seq<Diag>
    decreases |order|
  {
    if order == [] then [] else Section(order[0], fields, official) + RunFields(order[1..], fields, official)
  }

  /** A section reports an Error exactly when its key is not accepted. */
  lemma SectionVerdict(f: Field, fields: map<string, Json>, official: bool)
    ensures HasError(Section(f, fields, official)) <==> !FieldAccepted(f, fields)
  {
    if Key(f) in fields {
      FieldVerdict(f, fields[Key(f)], official);
    } else {
      MissingVerdict(f);
    }
  }

  lemma {:induction false} RunFieldsConcat(a: seq<Field>, b: seq<Field>, fields: map<string, Json>, official: bool)
    ensures RunFields(a + b, fields, official) == RunFields(a, fields, official) + RunFields(b, fields, official)
    decreases |a|
  {
    if a == [] {
      assert a + b == b;
    } else {
      assert (a + b)[1..] == a[1..] + b;
      RunFieldsConcat(a[1..], b, fields, official);
    }
  }

  /** The step outputs: the raw `codename` and `version` values, whenever
      the keys are present. */
  function Outputs(fields: map<string, Json>): map<string, Json> {
    var withCodename := if Key(CodenameKey) in fields then map[Key(CodenameKey) := fields[Key(CodenameKey)]] else map[];
    if Key(VersionKey) in fields then withCodename[Key(VersionKey) := fields[Key(VersionKey)]] else withCodename
  }

  datatype Outcome =
    | Thrown
    | Completed(diags: seq<Diag>, outputs: map<string, Json>)

  /** The whole run over a parsed document. */
  function Validate(doc: Json, official: bool): (o: Outcome)
    ensures o.Thrown? <==> Throws(doc)
  {
    if Throws(doc) then Thrown
    else
      var fields := Present(doc);
      Completed(RunFields(FieldOrder, fields, official), Outputs(fields))
  }

  /** Every key passes. */
  predicate Accepted(doc: Json) {
    forall f: Field :: FieldAccepted(f, Present(doc))
  }

  /** A completed run reports an Error exactly when some key breaks its
      declarative rule. */
  lemma ValidateVerdict(doc: Json, official: bool)
    ensures var o := Validate(doc, official);
      o.Completed? ==> (HasError(o.diags) <==> !Accepted(doc))
  {
    if !Throws(doc) {
      var fields := Present(doc);
      var diags := Validate(doc, official).diags;
      if HasError(diags) {
        var d :| d in diags && d.Error?;
        ValidateMembers(doc, official, d);
        var f: Field :| d in Section(f, fields, official);
        SectionVerdict(f, fields, official);
      }
      if !Accepted(doc) {
        var f: Field :| !FieldAccepted(f, fields);
        SectionVerdict(f, fields, official);
        var d :| d in Section(f, fields, official) && d.Error?;
        ValidateMembers(doc, official, d);
      }
    }
  }

  // ---------------------------------------------------------------------
  // what is reported, and where
  // ---------------------------------------------------------------------

  /** A diagnostic a rule can report: an annotation that is not about a
      missing key. */
  predicate RuleDiag(d: Diag) {
    (d.Error? || d.Warning?) && !d.msg.Missing? && !d.msg.MissingName?
  }

  predicate AllRuleDiags(ds: seq<Diag>) {
    forall d | d in ds :: RuleDiag(d)
  }

  /** Rule diagnostics the official flag has no say over. */
  predicate AllPlain(ds: seq<Diag>) {
    forall d | d in ds :: RuleDiag(d) && !Waived(d)
  }

  lemma CommonParts(field: string, subject: string, s: string)
    ensures AllPlain(SpaceWarnings(subject, s))
    ensures AllPlain(CheckControl(field, s))
  {
  }

  /** The per-value rules report annotations only, and never a missing key. */
  lemma ApiVersionAnnotates(v: Json)
    ensures AllPlain(CheckApiVersion(v))
  {
  }

  lemma CodenameAnnotates(v: Json, official: bool)
    ensures AllRuleDiags(CheckCodename(v, official))
  {
  }

  lemma VersionAnnotates(v: Json)
    ensures AllPlain(CheckVersion(v))
  {
  }

  lemma NameAnnotates(v: Json)
    ensures AllPlain(CheckName(v))
  {
    if v.JStr? && |v.s| >= 2 {
      CommonParts("`name`", "`name`", v.s);
    }
  }

  lemma DescriptionAnnotates(v: Json)
    ensures AllPlain(CheckDescription(v))
  {
    if v.JStr? && |v.s| >= 16 {
      CommonParts("`description`", "`description`", v.s);
    }
  }

  lemma WebsiteAnnotates(v: Json, official: bool)
    ensures AllRuleDiags(CheckWebsite(v, official))
  {
    if v.JStr? && |v.s| >= 10 {
      WebsiteParts(v, official);
      CommonParts("`website`", "`website`", v.s);
    }
  }

  lemma AuthorAnnotates(v: Json, official: bool)
    ensures AllRuleDiags(CheckAuthor(v, official))
  {
    if v.JStr? && |v.s| >= 2 {
      CommonParts("`author`", "`author`", v.s);
    }
  }

  lemma PermissionAnnotates(v: Json)
    ensures AllPlain(CheckPermission(v))
  {
    if v.JStr? && |v.s| >= 2 {
      PermissionParts(v);
      CommonParts("`permission`", "`permissions` item", v.s);
    }
  }

  /** An item's diagnostics are in the array's exactly when they are in
      some item's. */
  lemma {:induction false} CheckEachMembers(items: seq<Json>, check: Json -> seq<Diag>, d: Diag)
    ensures d in CheckEach(items, check) <==> exists i | 0 <= i < |items| :: d in check(items[i])
    decreases |items|
  {
    if items != [] {
      CheckEachMembers(items[1..], check, d);
      if exists j | 0 <= j < |items[1..]| :: d in check(items[1..][j]) {
        var j :| 0 <= j < |items[1..]| && d in check(items[1..][j]);
        assert d in check(items[j + 1]);
      }
      if exists i | 0 <= i < |items| :: d in check(items[i]) {
        var i :| 0 <= i < |items| && d in check(items[i]);
        if i > 0 {
          assert items[i] == items[1..][i - 1];
        }
      }
    }
  }

  /** An array reports an Error exactly when one of its items does. */
  lemma CheckEachVerdict(items: seq<Json>, check: Json -> seq<Diag>)
    ensures HasError(CheckEach(items, check)) <==> exists i | 0 <= i < |items| :: HasError(check(items[i]))
  {
    if HasError(CheckEach(items, check)) {
      var d :| d in CheckEach(items, check) && d.Error?;
      CheckEachMembers(items, check, d);
      var i :| 0 <= i < |items| && d in check(items[i]);
      assert HasError(check(items[i]));
    }
    if exists i | 0 <= i < |items| :: HasError(check(items[i])) {
      var i :| 0 <= i < |items| && HasError(check(items[i]));
      var d :| d in check(items[i]) && d.Error?;
      CheckEachMembers(items, check, d);
    }
  }

  /** A property every item's diagnostics have, the array's diagnostics
      have. */
  lemma EachKeeps(items: seq<Json>, check: Json -> seq<Diag>, p: Diag -> bool)
    requires forall x, d | d in check(x) :: p(d)
    ensures forall d | d in CheckEach(items, check) :: p(d)
  {
    forall d | d in CheckEach(items, check)
      ensures p(d)
    {
      CheckEachMembers(items, check, d);
      var i :| 0 <= i < |items| && d in check(items[i]);
    }
  }

  /** A present key reports Notices only for a value of unsupported shape,
      and nothing about missing keys. */
  lemma FieldDiags(f: Field, v: Json, official: bool)
    ensures forall d | d in CheckField(f, v, official) :: !d.msg.Missing? && !d.msg.MissingName?
    ensures (exists d :: d in CheckField(f, v, official) && d.Notice?) <==> Unsupported(f, v)
  {
    match f
    case ApiVersionKey => ApiVersionAnnotates(v);
    case CodenameKey => CodenameAnnotates(v, official);
    case VersionKey => VersionAnnotates(v);
    case NameKey => NameAnnotates(v);
    case DescriptionKey => DescriptionAnnotates(v);
    case WebsiteKey => WebsiteAnnotates(v, official);
    case AuthorKey =>
      if v.JStr? {
        AuthorAnnotates(v, official);
      } else if v.JArr? && AllStrings(v.items) {
        forall x ensures AllRuleDiags(AuthorCheck(official)(x)) {
          AuthorAnnotates(x, official);
        }
        EachKeeps(v.items, AuthorCheck(official), RuleDiag);
      } else {
        assert Notice(UnsupportedAuthor) in CheckField(f, v, official);
      }
    case PermissionsKey =>
      if v.JArr? && AllStrings(v.items) {
        forall x ensures AllRuleDiags(PermissionCheck()(x)) {
          PermissionAnnotates(x);
        }
        EachKeeps(v.items, PermissionCheck(), RuleDiag);
      } else {
        assert Notice(UnsupportedPermissions) in CheckField(f, v, official);
      }
  }

  /** A diagnostic of the run belongs to the section of some key. */
  lemma {:induction false} RunFieldsMembers(order: seq<Field>, fields: map<string, Json>, official: bool, d: Diag)
    ensures d in RunFields(order, fields, official) <==> exists i | 0 <= i < |order| :: d in Section(order[i], fields, official)
    decreases |order|
  {
    if order != [] {
      RunFieldsMembers(order[1..], fields, official, d);
      if exists j | 0 <= j < |order[1..]| :: d in Section(order[1..][j], fields, official) {
        var j :| 0 <= j < |order[1..]| && d in Section(order[1..][j], fields, official);
        assert d in Section(order[j + 1], fields, official);
      }
      if exists i | 0 <= i < |order| :: d in Section(order[i], fields, official) {
        var i :| 0 <= i < |order| && d in Section(order[i], fields, official);
        if i > 0 {
          assert order[i] == order[1..][i - 1];
        }
      }
    }
  }

  /** The diagnostics of a whole run are those of the eight sections. */
  lemma ValidateMembers(doc: Json, official: bool, d: Diag)
    requires !Throws(doc)
    ensures d in Validate(doc, official).diags <==> exists f: Field :: d in Section(f, Present(doc), official)
  {
    RunFieldsMembers(FieldOrder, Present(doc), official, d);
    if exists f: Field :: d in Section(f, Present(doc), official) {
      var f: Field :| d in Section(f, Present(doc), official);
      assert d in Section(FieldOrder[Rank(f)], Present(doc), official);
    }
  }

  /** Within one section: the Missing Error for `f` comes only from `f`'s
      own section, and only when `f` is required and absent. */
  lemma SectionMissing(g: Field, f: Field, fields: map<string, Json>, official: bool)
    ensures Error(Missing(Key(f))) in Section(g, fields, official) <==> g == f && Required(f) && Key(f) !in fields
  {
    if Key(g) in fields {
      FieldDiags(g, fields[Key(g)], official);
    } else {
      KeyInjective(f, g);
    }
  }

  lemma SectionMissingName(g: Field, fields: map<string, Json>, official: bool)
    ensures Warning(MissingName) in Section(g, fields, official) <==> g == NameKey && Key(NameKey) !in fields
  {
    if Key(g) in fields {
      FieldDiags(g, fields[Key(g)], official);
    }
  }

  lemma SectionNotice(g: Field, fields: map<string, Json>, official: bool)
    ensures (exists d :: d in Section(g, fields, official) && d.Notice?) <==> Key(g) in fields && Unsupported(g, fields[Key(g)])
  {
    if Key(g) in fields {
      FieldDiags(g, fields[Key(g)], official);
    }
  }

  /** Missing required keys are Errors, and nothing else is ever reported
      as a missing key. */
  lemma MissingPolicy(doc: Json, official: bool, f: Field)
    requires !Throws(doc)
    ensures Error(Missing(Key(f))) in Validate(doc, official).diags <==> Required(f) && Key(f) !in Present(doc)
  {
    ValidateMembers(doc, official, Error(Missing(Key(f))));
    forall g: Field
      ensures Error(Missing(Key(f))) in Section(g, Present(doc), official) <==> g == f && Required(f) && Key(f) !in Present(doc)
    {
      SectionMissing(g, f, Present(doc), official);
    }
  }

  /** A missing `name` is a Warning, reported exactly when `name` is absent. */
  lemma MissingNamePolicy(doc: Json, official: bool)
    requires !Throws(doc)
    ensures Warning(MissingName) in Validate(doc, official).diags <==> Key(NameKey) !in Present(doc)
  {
    ValidateMembers(doc, official, Warning(MissingName));
    forall g: Field
      ensures Warning(MissingName) in Section(g, Present(doc), official) <==> g == NameKey && Key(NameKey) !in Present(doc)
    {
      SectionMissingName(g, Present(doc), official);
    }
  }

  /** The run prints a Notice exactly when `author` or `permissions` holds a
      value of unsupported shape. */
  lemma NoticePolicy(doc: Json, official: bool)
    requires !Throws(doc)
    ensures HasNotice(Validate(doc, official).diags) <==>
      exists f: Field :: Key(f) in Present(doc) && Unsupported(f, Present(doc)[Key(f)])
  {
    var fields := Present(doc);
    var diags := Validate(doc, official).diags;
    if HasNotice(diags) {
      var d :| d in diags && d.Notice?;
      ValidateMembers(doc, official, d);
      var f: Field :| d in Section(f, fields, official);
      SectionNotice(f, fields, official);
    }
    if exists f: Field :: Key(f) in fields && Unsupported(f, fields[Key(f)]) {
      var f: Field :| Key(f) in fields && Unsupported(f, fields[Key(f)]);
      SectionNotice(f, fields, official);
      var d :| d in Section(f, fields, official) && d.Notice?;
      ValidateMembers(doc, official, d);
    }
  }

  /** The outputs are the `codename` and `version` entries of the fields,
      as they are. */
  lemma OutputsRestrict(fields: map<string, Json>)
    ensures forall k :: k in Outputs(fields) <==> k in fields && (k == Key(CodenameKey) || k == Key(VersionKey))
    ensures forall k | k in Outputs(fields) :: Outputs(fields)[k] == fields[k]
  {
  }

  /** The outputs of a run are the `codename` and `version` entries of the
      document, as they are, whatever the diagnostics. */
  lemma OutputsPolicy(doc: Json, official: bool)
    requires !Throws(doc)
    ensures var out := Validate(doc, official).outputs;
      && (forall k :: k in out <==> k in Present(doc) && (k == Key(CodenameKey) || k == Key(VersionKey)))
      && (forall k | k in out :: out[k] == Present(doc)[k])
  {
    OutputsRestrict(Present(doc));
  }

  /** Only the eight keys matter: two objects that agree on them are
      reported alike. */
  lemma OtherKeysIgnored(a: map<string, Json>, b: map<string, Json>, official: bool)
    requires "hasOwnProperty" !in a && "hasOwnProperty" !in b
    requires forall f: Field :: (Key(f) in a <==> Key(f) in b) && (Key(f) in a ==> a[Key(f)] == b[Key(f)])
    ensures Validate(JObj(a), official) == Validate(JObj(b), official)
  {
    SectionsAgree(FieldOrder, a, b, official);
    OutputsAgree(a, b);
  }

  lemma OutputsAgree(a: map<string, Json>, b: map<string, Json>)
    requires forall f: Field :: (Key(f) in a <==> Key(f) in b) && (Key(f) in a ==> a[Key(f)] == b[Key(f)])
    ensures Outputs(a) == Outputs(b)
  {
    assert Key(CodenameKey) in a <==> Key(CodenameKey) in b;
    assert Key(VersionKey) in a <==> Key(VersionKey) in b;
  }

  lemma {:induction false} SectionsAgree(order: seq<Field>, a: map<string, Json>, b: map<string, Json>, official: bool)
    requires forall f: Field :: (Key(f) in a <==> Key(f) in b) && (Key(f) in a ==> a[Key(f)] == b[Key(f)])
    ensures RunFields(order, a, official) == RunFields(order, b, official)
    decreases |order|
  {
    if order != [] {
      var f := order[0];
      assert Key(f) in a <==> Key(f) in b;
      SectionsAgree(order[1..], a, b, official);
    }
  }

  /** What a run reports when none of `order`'s keys is present. */
  function AbsentRun(order: seq<Field>): seq<Diag>
    decreases |order|
  {
    if order == [] then [] else MissingDiags(order[0]) + AbsentRun(order[1..])
  }

  lemma {:induction false} RunFieldsAbsent(order: seq<Field>, fields: map<string, Json>, official: bool)
    requires forall f: Field :: Key(f) !in fields
    ensures RunFields(order, fields, official) == AbsentRun(order)
    decreases |order|
  {
    if order != [] {
      assert Key(order[0]) !in fields;
      RunFieldsAbsent(order[1..], fields, official);
    }
  }

  lemma AbsentFieldOrder()
    ensures AbsentRun(FieldOrder) ==
      [Error(Missing("api_version")), Error(Missing("codename")), Error(Missing("version")), Warning(MissingName)]
  {
  }

  /** An empty manifest: the three required keys and `name` are reported
      missing, in order, and there are no outputs. */
  lemma EmptyManifest(official: bool)
    ensures Validate(JObj(map[]), official) ==
      Completed([Error(Missing("api_version")), Error(Missing("codename")), Error(Missing("version")), Warning(MissingName)], map[])
  {
    RunFieldsAbsent(FieldOrder, map[], official);
    AbsentFieldOrder();
  }

  /** A document that is neither `null` nor an object has none of the keys:
      it completes like the empty object. */
  lemma NonObjectDocument(doc: Json, official: bool)
    requires !doc.JNull? && !doc.JObj?
    ensures Validate(doc, official) ==
      Completed([Error(Missing("api_version")), Error(Missing("codename")), Error(Missing("version")), Warning(MissingName)], map[])
  {
    EmptyManifest(official);
  }
}

=== FILE: Official.dfy ===
/** The `official` input of the step. It is read once, and its only effect
    is to silence three Warnings: the reserved codename prefixes, the
    project's own website and the project named as an author. Every other
    diagnostic, every Error in particular, and the outputs are the same
    with or without it. */
module OfficialMode {
  import opened JsonValue
  import opened Text
  import opened Grammar
  import opened Diagnostics
  import opened Validators
  import opened Manifest

  /** `ds` without the Warnings an official plugin is spared, in order. */
  function DropWaived(ds: seq<Diag>): (r: seq<Diag>)
    ensures forall d :: d in r <==> d in ds && !Waived(d)
    ensures |r| <= |ds|
  {
    if ds == [] then []
    else (if Waived(ds[0]) then [] else [ds[0]]) + DropWaived(ds[1..])
  }

  lemma {:induction false} DropWaivedConcat(a: seq<Diag>, b: seq<Diag>)
    ensures DropWaived(a + b) == DropWaived(a) + DropWaived(b)
    decreases |a|
  {
    if a == [] {
      assert a + b == b;
    } else {
      assert (a + b)[1..] == a[1..] + b;
      DropWaivedConcat(a[1..], b);
    }
  }

  /** Nothing to drop leaves the diagnostics as they are. */
  lemma {:induction false} DropWaivedNothing(ds: seq<Diag>)
    requires forall d | d in ds :: !Waived(d)
    ensures DropWaived(ds) == ds
    decreases |ds|
  {
    if ds != [] {
      assert ds[0] in ds;
      DropWaivedNothing(ds[1..]);
    }
  }

  /** Dropping Warnings keeps every Error, in order. */
  lemma {:induction false} DropWaivedErrors(ds: seq<Diag>)
    ensures Errors(DropWaived(ds)) == Errors(ds)
    decreases |ds|
  {
    if ds != [] {
      var head := if Waived(ds[0]) then [] else [ds[0]];
      DropWaivedErrors(ds[1..]);
      ErrorsConcat(head, DropWaived(ds[1..]));
      ErrorsConcat([ds[0]], ds[1..]);
      assert [ds[0]] + ds[1..] == ds;
      assert [ds[0]][1..] == [];
    }
  }

  lemma PlainKept(ds: seq<Diag>)
    requires AllPlain(ds)
    ensures DropWaived(ds) == ds
  {
    DropWaivedNothing(ds);
  }

  /** Unspared diagnostics followed by spared Warnings lose exactly the
      latter. */
  lemma DropTrailing(kept: seq<Diag>, spared: seq<Diag>)
    requires forall d | d in kept :: !Waived(d)
    requires forall d | d in spared :: Waived(d)
    ensures DropWaived(kept + spared) == kept
  {
    DropWaivedConcat(kept, spared);
    DropWaivedNothing(kept);
  }

  // ---------------------------------------------------------------------
  // the three rules that read the flag
  // ---------------------------------------------------------------------

  lemma CodenameWaiver(v: Json)
    ensures CheckCodename(v, true) == DropWaived(CheckCodename(v, false))
  {
    if v.JStr? && |v.s| >= 2 && IdentShape(v.s, AnyCase) {
      CodenameParts(v, true);
      CodenameParts(v, false);
      var kept := (if |v.s| < 8 then [Warning(CodenameShort)] else [])
        + (if !IdentShape(v.s, LowerOnly) then [Warning(CodenameExpected)] else []);
      DropTrailing(kept, if ReservedPrefix(v.s) then [Warning(CodenamePrefix)] else []);
      assert kept + [] == kept;
    } else {
      CodenameUnwaived(v);
      DropWaivedNothing(CheckCodename(v, false));
    }
  }

  /** A codename without the required grammar never reaches the prefix
      check, so the flag has nothing to silence. */
  lemma CodenameUnwaived(v: Json)
    requires !(v.JStr? && |v.s| >= 2 && IdentShape(v.s, AnyCase))
    ensures CheckCodename(v, true) == CheckCodename(v, false)
    ensures forall d | d in CheckCodename(v, false) :: !Waived(d)
  {
    if v.JStr? && |v.s| >= 2 {
      IdentEquiv(v.s, AnyCase);
    }
  }

  lemma WebsiteWaiver(v: Json)
    ensures CheckWebsite(v, true) == DropWaived(CheckWebsite(v, false))
  {
    if v.JStr? && |v.s| >= 10 && HttpScheme(v.s) {
      WebsiteParts(v, true);
      WebsiteParts(v, false);
      CommonParts("`website`", "`website`", v.s);
      var kept := SpaceWarnings("`website`", v.s)
        + (if StartsWith(v.s, "http://") then [Warning(WebsiteHttp)] else [])
        + CheckControl("`website`", v.s);
      DropTrailing(kept, if Contains(v.s, "voxelite.net") then [Warning(WebsiteOfficial)] else []);
      assert kept + [] == kept;
    } else {
      WebsiteAnnotates(v, false);
      DropWaivedNothing(CheckWebsite(v, false));
    }
  }

  lemma AuthorWaiver(v: Json)
    ensures CheckAuthor(v, true) == DropWaived(CheckAuthor(v, false))
  {
    if v.JStr? && |v.s| >= 2 {
      AuthorParts(v, true);
      AuthorParts(v, false);
      CommonParts("`author`", "`author`", v.s);
      var kept := (if |v.s| < 8 then [Warning(ShortText("`author`", v.s))] else [])
        + SpaceWarnings("`author`", v.s)
        + CheckControl("`author`", v.s);
      DropTrailing(kept, if ReservedAuthor(v.s) then [Warning(AuthorReserved)] else []);
      assert kept + [] == kept;
    } else {
      AuthorAnnotates(v, false);
      DropWaivedNothing(CheckAuthor(v, false));
    }
  }

  lemma {:induction false} AuthorsWaiver(items: seq<Json>)
    ensures CheckEach(items, AuthorCheck(true)) == DropWaived(CheckEach(items, AuthorCheck(false)))
    decreases |items|
  {
    if items != [] {
      AuthorWaiver(items[0]);
      AuthorsWaiver(items[1..]);
      DropWaivedConcat(CheckAuthor(items[0], false), CheckEach(items[1..], AuthorCheck(false)));
    }
  }

  // ---------------------------------------------------------------------
  // the run
  // ---------------------------------------------------------------------

  /** Every key's diagnostics under the flag are its diagnostics without
      it, minus the spared Warnings. */
  lemma FieldWaiver(f: Field, v: Json)
    ensures CheckField(f, v, true) == DropWaived(CheckField(f, v, false))
  {
    match f
    case ApiVersionKey => ApiVersionAnnotates(v); PlainKept(CheckApiVersion(v));
    case CodenameKey => CodenameWaiver(v);
    case VersionKey => VersionAnnotates(v); PlainKept(CheckVersion(v));
    case NameKey => NameAnnotates(v); PlainKept(CheckName(v));
    case DescriptionKey => DescriptionAnnotates(v); PlainKept(CheckDescription(v));
    case WebsiteKey => WebsiteWaiver(v);
    case AuthorKey =>
      if v.JStr? {
        AuthorWaiver(v);
      } else if v.JArr? && AllStrings(v.items) {
        AuthorsWaiver(v.items);
      } else {
        DropWaivedNothing([Notice(UnsupportedAuthor)]);
      }
    case PermissionsKey =>
      if v.JArr? && AllStrings(v.items) {
        forall x ensures AllPlain(PermissionCheck()(x)) {
          PermissionAnnotates(x);
        }
        EachKeeps(v.items, PermissionCheck(), d => RuleDiag(d) && !Waived(d));
        PlainKept(CheckEach(v.items, PermissionCheck()));
      } else {
        DropWaivedNothing([Notice(UnsupportedPermissions)]);
      }
  }

  lemma SectionWaiver(f: Field, fields: map<string, Json>)
    ensures Section(f, fields, true) == DropWaived(Section(f, fields, false))
  {
    if Key(f) in fields {
      FieldWaiver(f, fields[Key(f)]);
    } else {
      DropWaivedNothing(MissingDiags(f));
    }
  }

  lemma {:induction false} RunFieldsWaiver(order: seq<Field>, fields: map<string, Json>)
    ensures RunFields(order, fields, true) == DropWaived(RunFields(order, fields, false))
    decreases |order|
  {
    if order != [] {
      SectionWaiver(order[0], fields);
      RunFieldsWaiver(order[1..], fields);
      DropWaivedConcat(Section(order[0], fields, false), RunFields(order[1..], fields, false));
    }
  }

  /** The official flag only removes the spared Warnings: the outputs and
      the Errors, so the verdict, are those of the same document without
      it. */
  lemma ValidateOfficial(doc: Json)
    ensures Validate(doc, true).Thrown? <==> Validate(doc, false).Thrown?
    ensures Validate(doc, true).Completed? ==>
      && Validate(doc, true).diags == DropWaived(Validate(doc, false).diags)
      && Validate(doc, true).outputs == Validate(doc, false).outputs
      && Errors(Validate(doc, true).diags) == Errors(Validate(doc, false).diags)
  {
    if !Throws(doc) {
      RunFieldsWaiver(FieldOrder, Present(doc));
      DropWaivedErrors(Validate(doc, false).diags);
    }
  }
}

=== FILE: Scenarios.dfy ===
/** Properties of whole checks over families of inputs, and the concrete
    cases the rules are usually explained with. */
module Scenarios {
  import opened JsonValue
  import opened Text
  import opened Grammar
  import opened Diagnostics
  import opened Validators
  import opened Manifest

  /** The length tiers of a lowercase codename that the prefix check lets
      through: one character is an Error, two to seven characters exactly
      one Warning, eight or more nothing at all. */
  lemma CodenameTiers(v: Json, official: bool)
    requires v.JStr? && IdentShape(v.s, LowerOnly) && (official || !ReservedPrefix(v.s))
    ensures |v.s| < 2 ==> CheckCodename(v, official) == [Error(AtLeastTwo("`codename`"))]
    ensures 2 <= |v.s| < 8 ==> CheckCodename(v, official) == [Warning(CodenameShort)]
    ensures |v.s| >= 8 ==> CheckCodename(v, official) == []
  {
    if |v.s| >= 2 {
      IdentEquiv(v.s, LowerOnly);
      LowerWithinAny(v.s);
      IdentEquiv(v.s, AnyCase);
      CodenameParts(v, official);
    }
  }

  /** A version made of digit runs joined by dots passes exactly when there
      are two or three runs. */
  lemma VersionFromRuns(parts: seq<string>)
    requires |parts| >= 1 && AllDigitRuns(parts)
    ensures CheckVersion(JStr(Join(parts, '.'))) == [] <==> |parts| == 2 || |parts| == 3
  {
    forall j | 0 <= j < |parts|
      ensures '.' !in parts[j]
    {
      DigitsHaveNoDot(parts[j]);
    }
    SplitJoin(parts, '.');
  }

  /** `major.minor` and `major.minor.patch` pass. */
  lemma VersionAccepted()
    ensures CheckVersion(JStr("1.2")) == []
    ensures CheckVersion(JStr("1.2.3")) == []
  {
    assert AllDigitRuns(["1", "2"]);
    VersionFromRuns(["1", "2"]);
    assert Join(["1", "2"], '.') == "1.2";
    assert AllDigitRuns(["1", "2", "3"]);
    VersionFromRuns(["1", "2", "3"]);
    assert Join(["1", "2", "3"], '.') == "1.2.3";
  }

  /** Four runs are one too many. */
  lemma VersionFourRuns()
    ensures CheckVersion(JStr("1.2.3.4")) == [Error(VersionFormat)]
  {
    assert AllDigitRuns(["1", "2", "3", "4"]);
    VersionFromRuns(["1", "2", "3", "4"]);
    assert Join(["1", "2", "3", "4"], '.') == "1.2.3.4";
  }

  /** A leading `v` is not a digit. */
  lemma VersionLeadingLetter()
    ensures CheckVersion(JStr("v1.2")) == [Error(VersionFormat)]
  {
    var s := "v1.2";
    assert s[..2] == "v1";
    SplitAt(s, '.', 2);
    assert !Digits(Split(s, '.')[0]);
  }

  /** A version that is not a string, a number included, is rejected by
      type. */
  lemma VersionNumber(v: Json)
    requires !v.JStr?
    ensures CheckVersion(v) == [Error(VersionType)]
  {
  }

  lemma ExampleCodename(official: bool)
    ensures CheckCodename(JStr("example_plugin"), official) == []
  {
    var s := "example_plugin";
    assert IdentShape(s, LowerOnly);
    assert !ReservedPrefix(s);
    CodenameTiers(JStr(s), official);
  }

  lemma ExampleVersion()
    ensures CheckVersion(JStr("1.0.0")) == []
  {
    assert AllDigitRuns(["1", "0", "0"]);
    VersionFromRuns(["1", "0", "0"]);
    assert Join(["1", "0", "0"], '.') == "1.0.0";
  }

  /** Sections that are all empty make an empty run. */
  lemma {:induction false} RunFieldsSilent(order: seq<Field>, fields: map<string, Json>, official: bool)
    requires forall k | 0 <= k < |order| :: Section(order[k], fields, official) == []
    ensures RunFields(order, fields, official) == []
    decreases |order|
  {
    if order != [] {
      RunFieldsSilent(order[1..], fields, official);
    }
  }

  /** A run around one key: what precedes it, its section, what follows. */
  lemma RunAround(a: seq<Field>, f: Field, b: seq<Field>, fields: map<string, Json>, official: bool)
    ensures RunFields(a + [f] + b, fields, official) ==
      RunFields(a, fields, official) + Section(f, fields, official) + RunFields(b, fields, official)
  {
    RunFieldsConcat(a + [f], b, fields, official);
    RunFieldsConcat(a, [f], fields, official);
    RunFieldsSingle(f, fields, official);
  }

  lemma RunFieldsSingle(f: Field, fields: map<string, Json>, official: bool)
    ensures RunFields([f], fields, official) == Section(f, fields, official)
  {
    assert [f][1..] == [];
    assert Section(f, fields, official) + [] == Section(f, fields, official);
  }

  /** The run over the fixed key order: the required keys, then `name`, then
      the other optional keys. */
  lemma RunSplit(fields: map<string, Json>, official: bool)
    ensures RunFields(FieldOrder, fields, official) ==
      RunFields([ApiVersionKey, CodenameKey, VersionKey], fields, official)
      + Section(NameKey, fields, official)
      + RunFields([DescriptionKey, WebsiteKey, AuthorKey, PermissionsKey], fields, official)
  {
    var req, rest := [ApiVersionKey, CodenameKey, VersionKey], [DescriptionKey, WebsiteKey, AuthorKey, PermissionsKey];
    assert FieldOrder == req + [NameKey] + rest;
    RunAround(req, NameKey, rest, fields, official);
  }

  /** Keys a document with only the required keys does not have. */
  lemma OptionalAbsent(fields: map<string, Json>, f: Field)
    requires fields.Keys == {Key(ApiVersionKey), Key(CodenameKey), Key(VersionKey)}
    requires !Required(f)
    ensures Section(f, fields, false) == Section(f, fields, true) == MissingDiags(f)
  {
    KeyInjective(f, ApiVersionKey);
    KeyInjective(f, CodenameKey);
    KeyInjective(f, VersionKey);
  }

  /** The optional keys after `name` are all absent and add nothing. */
  lemma OptionalSilent(fields: map<string, Json>, official: bool)
    requires fields.Keys == {Key(ApiVersionKey), Key(CodenameKey), Key(VersionKey)}
    ensures RunFields([DescriptionKey, WebsiteKey, AuthorKey, PermissionsKey], fields, official) == []
  {
    var rest := [DescriptionKey, WebsiteKey, AuthorKey, PermissionsKey];
    forall k | 0 <= k < |rest|
      ensures Section(rest[k], fields, official) == []
    {
      OptionalAbsent(fields, rest[k]);
    }
    RunFieldsSilent(rest, fields, official);
  }

  /** Required keys whose parts each report nothing add nothing to the run. */
  lemma RequiredSilent(fields: map<string, Json>, official: bool)
    requires Section(ApiVersionKey, fields, official) == []
    requires Section(CodenameKey, fields, official) == []
    requires Section(VersionKey, fields, official) == []
    ensures RunFields([ApiVersionKey, CodenameKey, VersionKey], fields, official) == []
  {
    var req := [ApiVersionKey, CodenameKey, VersionKey];
    assert forall k | 0 <= k < |req| :: Section(req[k], fields, official) == [];
    RunFieldsSilent(req, fields, official);
  }

  /** Only the three required keys, each reporting nothing: the optional
      keys contribute nothing but the `name` Warning. */
  lemma RequiredOnlyDiags(fields: map<string, Json>, official: bool)
    requires fields.Keys == {Key(ApiVersionKey), Key(CodenameKey), Key(VersionKey)}
    requires Section(ApiVersionKey, fields, official) == []
    requires Section(CodenameKey, fields, official) == []
    requires Section(VersionKey, fields, official) == []
    ensures RunFields(FieldOrder, fields, official) == [Warning(MissingName)]
  {
    OptionalAbsent(fields, NameKey);
    RequiredSilent(fields, official);
    OptionalSilent(fields, official);
    RunSplit(fields, official);
    assert [] + [Warning(MissingName)] + [] == [Warning(MissingName)];
  }

  /** A document with only the three required keys, each reporting nothing,
      completes with the `name` Warning alone and outputs its codename and
      version. */
  lemma RequiredOnly(fields: map<string, Json>, official: bool)
    requires fields.Keys == {Key(ApiVersionKey), Key(CodenameKey), Key(VersionKey)}
    requires Section(ApiVersionKey, fields, official) == []
    requires Section(CodenameKey, fields, official) == []
    requires Section(VersionKey, fields, official) == []
    ensures Validate(JObj(fields), official) ==
      Completed([Warning(MissingName)],
        map[Key(CodenameKey) := fields[Key(CodenameKey)], Key(VersionKey) := fields[Key(VersionKey)]])
  {
    assert |"hasOwnProperty"| == 14;
    assert "hasOwnProperty" !in fields;
    RequiredOnlyDiags(fields, official);
  }

  /** The section of a present required key is its own rule's result. */
  lemma RequiredDispatch(fields: map<string, Json>, official: bool)
    requires Key(ApiVersionKey) in fields && Key(CodenameKey) in fields && Key(VersionKey) in fields
    ensures Section(ApiVersionKey, fields, official) == CheckApiVersion(fields[Key(ApiVersionKey)])
    ensures Section(CodenameKey, fields, official) == CheckCodename(fields[Key(CodenameKey)], official)
    ensures Section(VersionKey, fields, official) == CheckVersion(fields[Key(VersionKey)])
  {
  }

  /** The smallest complete manifest, `{"api_version": 1, "codename":
      "example_plugin", "version": "1.0.0"}`: no Error, the Warning for the
      absent `name`, and the codename and version as outputs. */
  lemma EndToEnd(fields: map<string, Json>, official: bool)
    requires fields.Keys == {"api_version", "codename", "version"}
    requires fields["api_version"] == JNum(1)
    requires fields["codename"] == JStr("example_plugin")
    requires fields["version"] == JStr("1.0.0")
    ensures Validate(JObj(fields), official) ==
      Completed([Warning(MissingName)], map["codename" := JStr("example_plugin"), "version" := JStr("1.0.0")])
  {
    var api, code, ver := Key(ApiVersionKey), Key(CodenameKey), Key(VersionKey);
    assert api == "api_version" && code == "codename" && ver == "version";
    RequiredDispatch(fields, official);
    assert CheckApiVersion(fields[api]) == [];
    ExampleCodename(official);
    ExampleVersion();
    RequiredOnly(fields, official);
  }
}

=== FILE: Text.dfy ===
/** String operations the manifest rules are written with: the JavaScript
    `startsWith`, `endsWith`, `includes`/`indexOf`, splitting on a
    separator, decimal rendering of a character code, and the scan for
    control characters. A string is a sequence of characters and a
    character code is `c as int`. */
module Text {

  predicate StartsWith(s: string, p: string) {
    |p| <= |s| && s[..|p|] == p
  }

  predicate EndsWith(s: string, p: string) {
    |p| <= |s| && s[|s| - |p|..] == p
  }

  /** True iff `t` occurs as a contiguous block of `s`. */
  predicate Contains(s: string, t: string)
    decreases |s|
  {
    StartsWith(s, t) || (|s| > 0 && Contains(s[1..], t))
  }

  /** Position of the first `d` in `s`, or `|s|` when there is none. */
  function IndexOf(s: string, d: char): (i: nat)
    ensures i <= |s|
    ensures i < |s| ==> s[i] == d
    ensures d !in s[..i]
  {
    if |s| == 0 || s[0] == d then 0
    else
      var j := IndexOf(s[1..], d);
      assert s[..j + 1] == [s[0]] + s[1..][..j];
      1 + j
  }

  /** The pieces of `s` between occurrences of `d` (JavaScript `split`). */
  function Split(s: string, d: char): (parts: seq<string>)
    ensures |parts| >= 1
    ensures forall j | 0 <= j < |parts| :: d !in parts[j]
    decreases |s|
  {
    var i := IndexOf(s, d);
    if i == |s| then
      assert s[..i] == s;
      [s]
    else
      [s[..i]] + Split(s[i + 1..], d)
  }

  /** The pieces joined back with `d` between consecutive ones. */
  function Join(parts: seq<string>, d: char): string
    requires |parts| >= 1
  {
    if |parts| == 1 then parts[0] else parts[0] + [d] + Join(parts[1..], d)
  }

  lemma IndexOfFirst(s: string, d: char, i: nat)
    requires i <= |s|
    requires i < |s| ==> s[i] == d
    requires d !in s[..i]
    ensures IndexOf(s, d) == i
  {
  }

  /** Cutting `s` at an occurrence of `d` with none before it. */
  lemma SplitAt(s: string, d: char, i: nat)
    requires i < |s| && s[i] == d
    requires d !in s[..i]
    ensures Split(s, d) == [s[..i]] + Split(s[i + 1..], d)
  {
    IndexOfFirst(s, d, i);
  }

  /** A string without `d` is a single piece. */
  lemma SplitWhole(s: string, d: char)
    requires d !in s
    ensures Split(s, d) == [s]
  {
    assert s[..|s|] == s;
    IndexOfFirst(s, d, |s|);
  }

  /** A split with more than one piece cut at the first `d`. */
  lemma SplitFirst(s: string, d: char)
    requires |Split(s, d)| >= 2
    ensures IndexOf(s, d) < |s|
    ensures Split(s, d) == [s[..IndexOf(s, d)]] + Split(s[IndexOf(s, d) + 1..], d)
  {
  }

  /** A split with a single piece leaves the string whole. */
  lemma SplitSingle(s: string, d: char)
    requires |Split(s, d)| == 1
    ensures Split(s, d) == [s]
  {
  }

  lemma {:induction false} JoinSplit(s: string, d: char)
    ensures Join(Split(s, d), d) == s
    decreases |s|
  {
    var i := IndexOf(s, d);
    if i < |s| {
      var rest := Split(s[i + 1..], d);
      assert Split(s, d) == [s[..i]] + rest;
      assert ([s[..i]] + rest)[1..] == rest;
      JoinSplit(s[i + 1..], d);
      assert s == s[..i] + [d] + s[i + 1..];
    } else {
      assert s[..i] == s;
    }
  }

  lemma {:induction false} SplitJoin(parts: seq<string>, d: char)
    requires |parts| >= 1
    requires forall j | 0 <= j < |parts| :: d !in parts[j]
    ensures Split(Join(parts, d), d) == parts
    decreases |parts|
  {
    if |parts| == 1 {
      SplitWhole(parts[0], d);
    } else {
      var s := Join(parts, d);
      var i := |parts[0]|;
      assert s[..i] == parts[0];
      assert s[i + 1..] == Join(parts[1..], d);
      SplitAt(s, d, i);
      SplitJoin(parts[1..], d);
    }
  }

  function DecimalDigit(n: nat): (c: char)
    requires n < 10
    ensures '0' <= c <= '9' && c as int - '0' as int == n
  {
    ('0' as int + n) as char
  }

  /** The value of a string of decimal digits. */
  function DecimalValue(s: string): nat
    requires forall i | 0 <= i < |s| :: '0' <= s[i] <= '9'
  {
    if |s| == 0 then 0
    else DecimalValue(s[..|s| - 1]) * 10 + (s[|s| - 1] as int - '0' as int)
  }

  /** Decimal rendering of a natural number, as JavaScript prints a character code. */
  function NatToString(n: nat): (r: string)
    ensures |r| >= 1
    ensures forall i | 0 <= i < |r| :: '0' <= r[i] <= '9'
    ensures DecimalValue(r) == n
    ensures |r| == 1 || r[0] != '0'
  {
    if n < 10 then
      [DecimalDigit(n)]
    else
      var front := NatToString(n / 10);
      var r := front + [DecimalDigit(n % 10)];
      assert r[..|r| - 1] == front;
      r
  }

  /** A character below the space character (code 32). */
  predicate IsControl(c: char) {
    (c as int) < 32
  }

  predicate NoControl(s: string) {
    forall i | 0 <= i < |s| :: !IsControl(s[i])
  }

  /** Position of the first control character of `s`, or `|s|` when there is none. */
  function FirstControl(s: string): (i: nat)
    ensures i <= |s|
    ensures NoControl(s[..i])
    ensures i < |s| ==> IsControl(s[i])
  {
    if |s| == 0 || IsControl(s[0]) then 0
    else
      var j := FirstControl(s[1..]);
      assert s[..j + 1] == [s[0]] + s[1..][..j];
      1 + j
  }
}

=== FILE: Validators.dfy ===
/** The per-field checks of index.js. Each takes one field's raw JSON value
    (and, where it matters, the `official` flag) and returns the
    diagnostics it reports, in the order it reports them. A type or length
    check that does not hold reports one Error and ends the check; Warnings never end
    it. */
module Validators {
  import opened JsonValue
  import opened Diagnostics
  import opened Text
  import opened Grammar

  // ---------------------------------------------------------------------
  // Shared pieces
  // ---------------------------------------------------------------------

  /** The message for the first control character `c` found in `field`. */
  function ControlMessage(field: string, c: char): (m: Message)
    ensures m.NewLine? || m.Tab? || m.NonPrintable?
    ensures m == NewLine(field) <==> c as int == 13 || c as int == 10
    ensures m == Tab(field) <==> c as int == 9
    ensures m.NonPrintable? ==> m == NonPrintable(field, c as int)
  {
    if c == '\r' || c == '\n' then NewLine(field)
    else if c == '\t' then Tab(field)
    else NonPrintable(field, c as int)
  }

  /** validateNonPrintCharacter: at most one Error, for the first character
      below code 32, and none when there is no such character. */
  function CheckControl(field: string, s: string): (r: seq<Diag>)
    ensures |r| <= 1
    ensures r == [] <==> NoControl(s)
    ensures HasError(r) <==> !NoControl(s)
    ensures forall d | d in r :: d.Error?
    ensures r != [] ==>
      exists i | 0 <= i < |s| :: IsControl(s[i]) && NoControl(s[..i]) && r == [Error(ControlMessage(field, s[i]))]
  {
    var i := FirstControl(s);
    if i == |s| then
      assert s[..i] == s;
      []
    else
      var r := Stop(ControlMessage(field, s[i]));
      assert r == [Error(ControlMessage(field, s[i]))];
      r
  }

  /** validateNonPrintCharacter as index.js writes it: a left-to-right scan
      that reports the first character below code 32 and stops. It reports
      exactly what the declarative `CheckControl` does. */
  method ScanControl(field: string, s: string) returns (r: seq<Diag>)
    ensures r == CheckControl(field, s)
  {
    var i := 0;
    while i < |s|
      invariant 0 <= i <= |s|
      invariant NoControl(s[..i])
    {
      if IsControl(s[i]) {
        return [Error(ControlMessage(field, s[i]))];
      }
      assert s[..i + 1] == s[..i] + [s[i]];
      i := i + 1;
    }
    assert s[..i] == s;
    return [];
  }

  predicate HasEdgeSpace(s: string) {
    StartsWith(s, " ") || EndsWith(s, " ")
  }

  predicate HasDoubleSpace(s: string) {
    Contains(s, "  ")
  }

  /** The two whitespace Warnings shared by every free-text field. */
  function SpaceWarnings(subject: string, s: string): (r: seq<Diag>)
    ensures AllWarnings(r)
    ensures Warning(EdgeSpace(subject)) in r <==> HasEdgeSpace(s)
    ensures Warning(DoubleSpace(subject)) in r <==> HasDoubleSpace(s)
    ensures forall d | d in r :: d == Warning(EdgeSpace(subject)) || d == Warning(DoubleSpace(subject))
    ensures |r| <= 2 && (|r| == 2 ==> r[0] == Warning(EdgeSpace(subject)) && r[1] == Warning(DoubleSpace(subject)))
  {
    (if HasEdgeSpace(s) then [Warning(EdgeSpace(subject))] else [])
    + (if HasDoubleSpace(s) then [Warning(DoubleSpace(subject))] else [])
  }

  // ---------------------------------------------------------------------
  // api_version
  // ---------------------------------------------------------------------

  /** checkApiVersion: the number 1 passes silently, the string "1" passes
      with a Warning, anything else gets an Error; a string is always warned about
      before its value is looked at. */
  function CheckApiVersion(v: Json): (r: seq<Diag>)
    ensures r == [] <==> v == JNum(1)
    ensures HasError(r) <==> v != JNum(1) && v != JStr("1")
    ensures ErrorEndsChain(r) && |r| <= 2
    ensures v.JStr? <==> |r| >= 1 && r[0] == Warning(ApiString)
    ensures |r| == (if v.JStr? then 1 else 0) + (if v != JNum(1) && v != JStr("1") then 1 else 0)
  {
    match v
    case JStr(s) =>
      var w := [Warning(ApiString)];
      if s != "1" then
        WarningsThen(w, Stop(ApiValue));
        w + Stop(ApiValue)
      else
        w
    case JNum(n) => if n != 1 then Stop(ApiValue) else []
    case _ => Stop(ApiType)
  }

  // ---------------------------------------------------------------------
  // codename
  // ---------------------------------------------------------------------

  /** The exact, case-sensitive prefixes reserved for official plugins. */
  predicate ReservedPrefix(s: string) {
    StartsWith(s, "vl_") || StartsWith(s, "VL_") || StartsWith(s, "voxelite_") || StartsWith(s, "VOXELITE_")
  }

  /** A codename that passes every Error check. */
  predicate CodenameOk(v: Json) {
    v.JStr? && |v.s| >= 2 && IdentShape(v.s, AnyCase)
  }

  /** checkCodename: type, then length tiers, then the required grammar (an
      Error), the expected grammar and the reserved prefixes (Warnings). */
  function CheckCodename(v: Json, official: bool): (r: seq<Diag>)
    ensures HasError(r) <==> !CodenameOk(v)
    ensures ErrorEndsChain(r) && |r| <= 3
    ensures !v.JStr? || |v.s| < 2 ==> |r| == 1
  {
    if !v.JStr? then Stop(NotString("`codename`"))
    else if |v.s| == 0 then Stop(Empty("`codename`"))
    else if |v.s| < 2 then Stop(AtLeastTwo("`codename`"))
    else
      var length := if |v.s| < 8 then [Warning(CodenameShort)] else [];
      IdentEquiv(v.s, AnyCase);
      IdentEquiv(v.s, LowerOnly);
      if !IdentMatch(v.s, AnyCase) then
        WarningsThen(length, Stop(CodenameRequired));
        length + Stop(CodenameRequired)
      else
        var r := length
          + (if !IdentMatch(v.s, LowerOnly) then [Warning(CodenameExpected)] else [])
          + (if ReservedPrefix(v.s) && !official then [Warning(CodenamePrefix)] else []);
        assert AllWarnings(r);
        r
  }

  /** The diagnostics of a codename that has the required grammar. */
  lemma CodenameParts(v: Json, official: bool)
    requires v.JStr? && |v.s| >= 2 && IdentShape(v.s, AnyCase)
    ensures CheckCodename(v, official) ==
      (if |v.s| < 8 then [Warning(CodenameShort)] else [])
      + (if !IdentShape(v.s, LowerOnly) then [Warning(CodenameExpected)] else [])
      + (if ReservedPrefix(v.s) && !official then [Warning(CodenamePrefix)] else [])
  {
    IdentEquiv(v.s, AnyCase);
    IdentEquiv(v.s, LowerOnly);
  }

  /** The diagnostics of a codename of at least two characters outside the
      required grammar: the short Warning below 8 characters, then the
      required-format Error, and nothing after it. */
  lemma CodenameFails(v: Json, official: bool)
    requires v.JStr? && |v.s| >= 2 && !IdentShape(v.s, AnyCase)
    ensures CheckCodename(v, official) ==
      (if |v.s| < 8 then [Warning(CodenameShort)] else []) + [Error(CodenameRequired)]
  {
    IdentEquiv(v.s, AnyCase);
  }

  /** Which Warnings checkCodename reports, and when. */
  lemma CodenameWarnings(v: Json, official: bool)
    ensures var r := CheckCodename(v, official);
      && (Warning(CodenameShort) in r <==> v.JStr? && 2 <= |v.s| < 8)
      && (Warning(CodenameExpected) in r <==> CodenameOk(v) && !IdentShape(v.s, LowerOnly))
      && (Warning(CodenamePrefix) in r <==> CodenameOk(v) && ReservedPrefix(v.s) && !official)
  {
    if v.JStr? && |v.s| >= 2 {
      IdentEquiv(v.s, AnyCase);
      IdentEquiv(v.s, LowerOnly);
    }
  }

  // ---------------------------------------------------------------------
  // name
  // ---------------------------------------------------------------------

  /** A name that passes every Error check. */
  predicate NameOk(v: Json) {
    v.JStr? && |v.s| >= 2 && NoControl(v.s)
  }

  /** checkName */
  function CheckName(v: Json): (r: seq<Diag>)
    ensures HasError(r) <==> !NameOk(v)
    ensures ErrorEndsChain(r)
    ensures !v.JStr? || |v.s| < 2 ==> |r| == 1
  {
    if !v.JStr? then Stop(NotString("`name`"))
    else if |v.s| == 0 then Stop(Empty("`name`"))
    else if |v.s| < 2 then Stop(AtLeastTwo("`name`"))
    else
      var length := if |v.s| < 8 then [Warning(ShortText("`name`", v.s))] else [];
      var spaces := SpaceWarnings("`name`", v.s);
      var control := CheckControl("`name`", v.s);
      WarningsThen(length + spaces, control);
      length + spaces + control
  }

  /** A name that passes the type and length checks gets the short-name
      Warning, then the whitespace Warnings, then the control-character scan. */
  lemma NameParts(v: Json)
    requires v.JStr? && |v.s| >= 2
    ensures CheckName(v) ==
      (if |v.s| < 8 then [Warning(ShortText("`name`", v.s))] else [])
      + SpaceWarnings("`name`", v.s)
      + CheckControl("`name`", v.s)
  {
  }

  /** Which Warnings checkName reports: each exactly when its condition
      holds of a name long enough to reach it. */
  lemma NameWarnings(v: Json)
    requires v.JStr?
    ensures var r := CheckName(v);
      && (Warning(ShortText("`name`", v.s)) in r <==> 2 <= |v.s| < 8)
      && (Warning(EdgeSpace("`name`")) in r <==> |v.s| >= 2 && HasEdgeSpace(v.s))
      && (Warning(DoubleSpace("`name`")) in r <==> |v.s| >= 2 && HasDoubleSpace(v.s))
  {
  }

  // ---------------------------------------------------------------------
  // version
  // ---------------------------------------------------------------------

  /** checkVersion: silent exactly on `major.minor` and `major.minor.patch`,
      one Error otherwise. */
  function CheckVersion(v: Json): (r: seq<Diag>)
    ensures r == [] <==> v.JStr? && VersionShape(v.s)
    ensures r != [] ==> |r| == 1 && r[0].Error?
    ensures HasError(r) <==> r != []
  {
    if !v.JStr? then Stop(VersionType)
    else
      VersionEquiv(v.s);
      if !VersionMatch(v.s) then Stop(VersionFormat) else []
  }

  // ---------------------------------------------------------------------
  // description
  // ---------------------------------------------------------------------

  predicate DescriptionOk(v: Json) {
    v.JStr? && |v.s| >= 16 && NoControl(v.s)
  }

  /** checkDescription: no length Warning, only the 16-character minimum. */
  function CheckDescription(v: Json): (r: seq<Diag>)
    ensures HasError(r) <==> !DescriptionOk(v)
    ensures ErrorEndsChain(r)
    ensures !v.JStr? || |v.s| < 16 ==> |r| == 1
  {
    if !v.JStr? then Stop(NotString("`description`"))
    else if |v.s| == 0 then Stop(Empty("`description`"))
    else if |v.s| < 16 then Stop(AtLeastOrAbsent("`description`", 16))
    else
      var spaces := SpaceWarnings("`description`", v.s);
      var control := CheckControl("`description`", v.s);
      WarningsThen(spaces, control);
      spaces + control
  }

  /** A description of at least 16 characters gets the whitespace Warnings,
      then the control-character scan. */
  lemma DescriptionParts(v: Json)
    requires v.JStr? && |v.s| >= 16
    ensures CheckDescription(v) == SpaceWarnings("`description`", v.s) + CheckControl("`description`", v.s)
  {
  }

  /** Which Warnings checkDescription reports, and when. */
  lemma DescriptionWarnings(v: Json)
    requires v.JStr?
    ensures var r := CheckDescription(v);
      && (Warning(EdgeSpace("`description`")) in r <==> |v.s| >= 16 && HasEdgeSpace(v.s))
      && (Warning(DoubleSpace("`description`")) in r <==> |v.s| >= 16 && HasDoubleSpace(v.s))
      && (forall d | d in r :: d.Warning? ==> d == Warning(EdgeSpace("`description`")) || d == Warning(DoubleSpace("`description`")))
  {
  }

  // ---------------------------------------------------------------------
  // website
  // ---------------------------------------------------------------------

  predicate HttpScheme(s: string) {
    StartsWith(s, "http://") || StartsWith(s, "https://")
  }

  predicate WebsiteOk(v: Json) {
    v.JStr? && |v.s| >= 10 && HttpScheme(v.s) && NoControl(v.s)
  }

  /** checkWebsite. The control-character Error does not end the check: the
      official-domain Warning may still follow it. */
  function CheckWebsite(v: Json, official: bool): (r: seq<Diag>)
    ensures HasError(r) <==> !WebsiteOk(v)
    ensures !v.JStr? || |v.s| < 10 ==> |r| == 1
  {
    if !v.JStr? then Stop(NotString("`website`"))
    else if |v.s| == 0 then Stop(Empty("`website`"))
    else if |v.s| < 10 then Stop(AtLeastOrAbsent("`website`", 10))
    else
      var spaces := SpaceWarnings("`website`", v.s);
      if !HttpScheme(v.s) then
        WarningsThen(spaces, Stop(WebsiteScheme));
        spaces + Stop(WebsiteScheme)
      else
        var http := if StartsWith(v.s, "http://") then [Warning(WebsiteHttp)] else [];
        var control := CheckControl("`website`", v.s);
        var domain := if Contains(v.s, "voxelite.net") && !official then [Warning(WebsiteOfficial)] else [];
        WarningsThen(spaces + http, control);
        HasErrorConcat(spaces + http + control, domain);
        spaces + http + control + domain
  }

  /** The diagnostics of a website that reaches the scheme check. */
  lemma WebsiteParts(v: Json, official: bool)
    requires v.JStr? && |v.s| >= 10
    ensures var spaces := SpaceWarnings("`website`", v.s);
      CheckWebsite(v, official) ==
        if !HttpScheme(v.s) then spaces + [Error(WebsiteScheme)]
        else
          spaces
          + (if StartsWith(v.s, "http://") then [Warning(WebsiteHttp)] else [])
          + CheckControl("`website`", v.s)
          + (if Contains(v.s, "voxelite.net") && !official then [Warning(WebsiteOfficial)] else [])
  {
  }

  /** Which scheme and domain Warnings checkWebsite reports, and when. */
  lemma WebsiteWarnings(v: Json, official: bool)
    requires v.JStr?
    ensures var r := CheckWebsite(v, official);
      && (Warning(WebsiteHttp) in r <==> |v.s| >= 10 && StartsWith(v.s, "http://"))
      && (Warning(WebsiteOfficial) in r <==> |v.s| >= 10 && HttpScheme(v.s) && Contains(v.s, "voxelite.net") && !official)
  {
    if |v.s| >= 10 {
      WebsiteParts(v, official);
    }
  }

  /** Which whitespace Warnings checkWebsite reports, and when. */
  lemma WebsiteSpaceWarnings(v: Json, official: bool)
    requires v.JStr?
    ensures var r := CheckWebsite(v, official);
      && (Warning(EdgeSpace("`website`")) in r <==> |v.s| >= 10 && HasEdgeSpace(v.s))
      && (Warning(DoubleSpace("`website`")) in r <==> |v.s| >= 10 && HasDoubleSpace(v.s))
  {
    if |v.s| >= 10 {
      WebsiteParts(v, official);
    }
  }

  /** checkWebsite reports at most one Error. */
  lemma WebsiteOneError(v: Json, official: bool)
    ensures ErrorCount(CheckWebsite(v, official)) <= 1
  {
    if v.JStr? && |v.s| >= 10 {
      WebsiteParts(v, official);
      var spaces := SpaceWarnings("`website`", v.s);
      var http := if StartsWith(v.s, "http://") then [Warning(WebsiteHttp)] else [];
      if !HttpScheme(v.s) {
        ErrorsBetweenWarnings(spaces, [Error(WebsiteScheme)], []);
        assert spaces + [Error(WebsiteScheme)] + [] == spaces + [Error(WebsiteScheme)];
      } else {
        var control := CheckControl("`website`", v.s);
        var domain := if Contains(v.s, "voxelite.net") && !official then [Warning(WebsiteOfficial)] else [];
        ErrorsBetweenWarnings(spaces + http, control, domain);
      }
    }
  }

  // ---------------------------------------------------------------------
  // author
  // ---------------------------------------------------------------------

  /** The author names reserved for the project itself. */
  predicate ReservedAuthor(s: string) {
    s == "vl" || s == "voxelite"
  }

  predicate AuthorOk(v: Json) {
    v.JStr? && |v.s| >= 2 && NoControl(v.s)
  }

  /** checkAuthor. A reserved name has no control character, so the
      reserved-name Warning never follows an Error. */
  function CheckAuthor(v: Json, official: bool): (r: seq<Diag>)
    ensures HasError(r) <==> !AuthorOk(v)
    ensures ErrorEndsChain(r)
    ensures !v.JStr? || |v.s| < 2 ==> |r| == 1
  {
    if !v.JStr? then Stop(NotString("`author`"))
    else if |v.s| == 0 then Stop(Empty("`author`"))
    else if |v.s| < 2 then Stop(AtLeastTwo("`author`"))
    else
      var length := if |v.s| < 8 then [Warning(ShortText("`author`", v.s))] else [];
      var spaces := SpaceWarnings("`author`", v.s);
      var control := CheckControl("`author`", v.s);
      var reserved := if ReservedAuthor(v.s) && !official then [Warning(AuthorReserved)] else [];
      ReservedAuthorPrintable(v.s);
      WarningsThen(length + spaces, control);
      assert reserved != [] ==> control == [];
      length + spaces + control + reserved
  }

  /** The diagnostics of an author long enough to reach the Warnings. */
  lemma AuthorParts(v: Json, official: bool)
    requires v.JStr? && |v.s| >= 2
    ensures CheckAuthor(v, official) ==
      (if |v.s| < 8 then [Warning(ShortText("`author`", v.s))] else [])
      + SpaceWarnings("`author`", v.s)
      + CheckControl("`author`", v.s)
      + (if ReservedAuthor(v.s) && !official then [Warning(AuthorReserved)] else [])
  {
  }

  /** Which length and reserved-name Warnings checkAuthor reports, and when. */
  lemma AuthorWarnings(v: Json, official: bool)
    ensures var r := CheckAuthor(v, official);
      && (v.JStr? ==> (Warning(ShortText("`author`", v.s)) in r <==> 2 <= |v.s| < 8))
      && (Warning(AuthorReserved) in r <==> v.JStr? && ReservedAuthor(v.s) && !official)
  {
    if v.JStr? && |v.s| >= 2 {
      AuthorParts(v, official);
    }
  }

  /** Which whitespace Warnings checkAuthor reports, and when. */
  lemma AuthorSpaceWarnings(v: Json, official: bool)
    requires v.JStr?
    ensures var r := CheckAuthor(v, official);
      && (Warning(EdgeSpace("`author`")) in r <==> |v.s| >= 2 && HasEdgeSpace(v.s))
      && (Warning(DoubleSpace("`author`")) in r <==> |v.s| >= 2 && HasDoubleSpace(v.s))
  {
    if |v.s| >= 2 {
      AuthorParts(v, official);
    }
  }

  lemma ReservedAuthorPrintable(s: string)
    ensures ReservedAuthor(s) ==> NoControl(s)
  {
  }

  // ---------------------------------------------------------------------
  // permissions item
  // ---------------------------------------------------------------------

  predicate PermissionOk(v: Json) {
    v.JStr? && |v.s| >= 2 && NoControl(v.s) && PermShape(v.s)
  }

  /** checkPermission. The control-character Error only leaves the scan,
      so the format check still runs after it. */
  function CheckPermission(v: Json): (r: seq<Diag>)
    ensures HasError(r) <==> !PermissionOk(v)
    ensures !v.JStr? || |v.s| < 2 ==> |r| == 1
  {
    if !v.JStr? then Stop(PermissionType)
    else if |v.s| == 0 then Stop(PermissionEmpty)
    else if |v.s| < 2 then Stop(PermissionMin(v.s))
    else
      var spaces := SpaceWarnings("`permissions` item", v.s);
      var control := CheckControl("`permission`", v.s);
      var format := if !PermMatch(v.s) then Stop(PermissionFormat(v.s)) else [];
      PermEquiv(v.s);
      WarningsThen(spaces, control);
      HasErrorConcat(spaces + control, format);
      spaces + control + format
  }

  /** The diagnostics of a permission long enough to reach the format check. */
  lemma PermissionParts(v: Json)
    requires v.JStr? && |v.s| >= 2
    ensures CheckPermission(v) ==
      SpaceWarnings("`permissions` item", v.s)
      + CheckControl("`permission`", v.s)
      + (if !PermShape(v.s) then [Error(PermissionFormat(v.s))] else [])
  {
    PermEquiv(v.s);
  }

  /** The format check of checkPermission runs whatever the control-character
      scan found. */
  lemma PermissionFormatChecked(v: Json)
    requires v.JStr?
    ensures Error(PermissionFormat(v.s)) in CheckPermission(v) <==> |v.s| >= 2 && !PermShape(v.s)
  {
    if |v.s| >= 2 {
      PermissionParts(v);
      var spaces := SpaceWarnings("`permissions` item", v.s);
      var control := CheckControl("`permission`", v.s);
      assert Error(PermissionFormat(v.s)) !in spaces + control;
    } else {
      var m := if |v.s| == 0 then PermissionEmpty else PermissionMin(v.s);
      assert CheckPermission(v) == [Error(m)];
    }
  }

  /** The whitespace Warnings of a permission are reported exactly when they
      apply. */
  lemma PermissionSpaceWarnings(v: Json)
    requires v.JStr?
    ensures Warning(EdgeSpace("`permissions` item")) in CheckPermission(v) <==> |v.s| >= 2 && HasEdgeSpace(v.s)
    ensures Warning(DoubleSpace("`permissions` item")) in CheckPermission(v) <==> |v.s| >= 2 && HasDoubleSpace(v.s)
  {
    if |v.s| >= 2 {
      PermissionParts(v);
      var spaces := SpaceWarnings("`permissions` item", v.s);
      var control := CheckControl("`permission`", v.s);
      var format := if !PermShape(v.s) then [Error(PermissionFormat(v.s))] else [];
      assert forall d: Diag | d in control + format :: d.Error?;
    }
  }

  /** checkPermission reports at most two Errors: a control character and a
      bad format. */
  lemma PermissionErrors(v: Json)
    ensures ErrorCount(CheckPermission(v)) <= 2
  {
    if v.JStr? && |v.s| >= 2 {
      PermissionParts(v);
      var spaces := SpaceWarnings("`permissions` item", v.s);
      var control := CheckControl("`permission`", v.s);
      var format := if !PermShape(v.s) then [Error(PermissionFormat(v.s))] else [];
      ErrorsBetweenWarnings(spaces, control, []);
      assert spaces + control + [] == spaces + control;
      ErrorsConcat(spaces + control, format);
    }
  }
}
